=== FILE: README.md ===
# Caption bot model

A Dafny model of a Telegram bot that captions anime posters. The bot has
five configuration commands:

- `/setquality` stores a chat's quality list;
- `/setcaption` stores the chat's caption template;
- `/setbatch` stores the chat's batch channel;
- `/ban` adds a name to a banned set, for admins only;
- `/start` replies with a fixed message.

It also runs one conversation, `/imgcap`:

1. The bot asks for a photo and keeps the file id of the photo's largest size.
2. It asks for four lines of details: name, status, season and episodes.
3. It formats the chat's caption template (or the built-in one) with the
   trimmed lines and the chat's qualities (or the configured defaults). It
   sends the photo back with that caption, which ends the conversation.
4. `/cancel` ends the conversation from either waiting state.

The model is pure: a bot state (every chat's data, every chat's conversation
state, the banned set) and a `Step` function that takes one update and
returns the new state, the replies sent and any exception a handler raised.

Modules, one per component:

- `Wrappers`: `Option` and `Result`.
- `PyStr`: the Python `str` operations the handlers use. These are `isspace`,
  `strip()`, `lstrip(ch)`, `split(sep)`, `split(maxsplit=1)` and `sep.join`.
  - `isspace` is the table of Python's whitespace characters.
  - `strip()` and `split(maxsplit=1)` each have an independent description
    (`Padded`, `SplitsOnce`) and a lemma that the description admits only
    their answer.
  - `lstrip(ch)` is described in its own contract.
  - `split(sep)` and `join` undo each other.
- `PyRepr`: Python's `repr` of a string and of a list of strings, which the
  `/setquality` reply prints. It has a reader that inverts it.
- `Template`: the part of `str.format` the caption needs. A template is parsed
  into literal characters and the five named fields (plus `{{` and `}}`), then
  rendered. The built-in template is worked out line by line.
- `Store`: per-chat data, the configuration and the replies.
- `Commands`: the five command handlers.
- `Wizard`: the four conversation handlers.
- `Bot`: the handler table of `main()`, a run of several updates, and the
  conversation invariant.

Behaviour that follows the code as written:

- The stored photo id is never cleared, neither when the conversation ends nor
  on `/cancel`.
- In IMAGE_WAIT, a non-command message that is not a photo gets no reply.
  (`/cancel` and the five configuration commands are still answered.) Only messages
  that pass `filters.PHOTO`, which need at least one photo size, reach
  `process_img`. Its "Please send an image." branch is therefore unreachable
  from the handler table. `Wizard.ProcessImg` models that branch only for
  completeness, and `Bot.Converse` never calls it with an empty list.
- Details are counted with `split('\n')`, so empty lines count as details.
- `/imgcap` during a conversation is not handled, because the conversation
  does not allow re-entry.
- The `.format(` call at `main.py:92` has no closing parenthesis before
  `main.py:98`. It is modelled as closing after `main.py:97`.

## Model

| member | source | states |
|---|---|---|
| PyStr.Strip | main.py:29 | `s.strip()` has no whitespace at either end and is `s` with only whitespace removed from its two ends |
| PyStr.StripUnique | main.py:29 | any trimmed infix of `s` framed by whitespace is `strip(s)`, so `strip` has exactly one possible answer |
| PyStr.StripIdempotent | main.py:58 | stripping a stripped string changes nothing |
| PyStr.LStripChar | main.py:49 | `lstrip('@')` removes every leading `@` and nothing else, and the result does not start with `@` |
| PyStr.Split | main.py:77 | `split('\n')` gives one more piece than there are newlines, no piece holds a newline, and joining the pieces with newlines gives the text back |
| PyStr.SplitJoin | main.py:77 | splitting lines joined by newlines gives the same lines back, when none of them holds a newline |
| PyStr.SplitOnceSplits | main.py:25 | `split(maxsplit=1)` gives nothing for blank text, else the first word, then the rest from its first non-blank character (if anything follows) |
| PyStr.SplitOnceUnique | main.py:25 | no other list is a split that `split(maxsplit=1)` could return |
| PyStr.Argument | main.py:25-26 | a command's argument is present exactly when the split has two parts, and it is the second part |
| PyStr.ArgumentUnique | main.py:34-38 | whenever the text splits into a word and a rest, the argument the handlers store is that rest |
| PyStr.NoArgument | main.py:54-57 | text that is blank after its first word (or blank altogether) always leaves a command without an argument |
| PyRepr.ReprNeedsNoEscape | main.py:31 | when the string does not hold both kinds of quote, the quote `repr` picks does not occur in it; such a string with no backslash and no ASCII control character prints as itself between quotes |
| PyRepr.ReprRoundTrip | main.py:31 | reading back the printed form of a string gives the string |
| PyRepr.ReprListRoundTrip | main.py:31 | reading back the printed form of a list of strings gives the list, so the `/setquality` reply shows exactly the stored qualities |
| Template.ParseUnparse | main.py:92-97 | every sequence of literal characters and fields is read back from the template text it is written as |
| Template.UnparseParse | main.py:92-97 | a template that formats without error is exactly the text of the pieces read from it |
| Template.FormatPlain | main.py:92-97 | text without braces formats to itself, whatever the values |
| Template.FormatUnknownField | main.py:92-97 | a placeholder other than the five keyword arguments makes the whole format fail with that name |
| Template.RenderHasField | main.py:92-97 | each field a template mentions appears in the output with its value |
| Template.FormatAppend | main.py:92-97 | the pieces at the front of a template are rendered at the front of the output, and an error later in the template fails the whole format |
| Template.DefaultCaption | main.py:81-90 | the built-in template never fails, and gives each of its seven lines with the field's value in place of the placeholder |
| Template.DefaultCaptionMentions | main.py:83-89 | a caption made with the built-in template contains `Audio: Hindi`, `#AnimeLovers #HindiDubbedAnime` and every value |
| Commands.StripEach | main.py:29 | the list comprehension keeps the order and the number of the pieces. Each result has no whitespace at its ends and is its piece with only end whitespace removed, which by `PyStr.StripUnique` is exactly `strip()` |
| Commands.SetQuality | main.py:24-31 | with no argument, only the usage reply. Otherwise it stores one trimmed, comma-free entry per comma-separated piece (one more than the commas) and only changes `qualities`. It replies with the stored list in its printed form |
| Commands.SetCaption | main.py:33-39 | with no argument, only the usage reply. Otherwise it stores the text after the first word and only changes `caption_template` |
| Commands.SetBatch | main.py:53-59 | with no argument, only the usage reply. Otherwise it stores the argument trimmed, only changes `batch_channel`, and replies with what was stored |
| Commands.BanName | main.py:49 | the banned name is the trimmed argument without its run of leading `@`, and does not start with `@` |
| Commands.Ban | main.py:41-51 | a non-admin is refused before the text is read and nothing changes. An admin without an argument gets the usage reply. An admin with one adds exactly that name, and the set never shrinks |
| Commands.BanIdempotent | main.py:50 | the same `/ban` a second time leaves the banned set as it was |
| Wizard.ImgcapStart | main.py:61-63 | `/imgcap` moves to IMAGE_WAIT and leaves the chat's data alone |
| Wizard.ProcessImg | main.py:65-74 | it stores the id of the last (largest) size, only changes `img_file_id`, and moves to IMG_DETAILS. The no-photo branch asks again and changes nothing; the handler table never reaches it |
| Wizard.DetailValues | main.py:93-97 | the name, status, season and episodes are the first four lines in that order, each with only whitespace removed from its ends and none left there; the qualities are the chat's list joined by `", "` |
| Wizard.TemplateOf | main.py:81-90 | a chat's own template is used when it has one, the built-in one otherwise |
| Wizard.QualitiesOf | main.py:91 | a chat's own qualities are used when it has set them, the configured defaults otherwise |
| Wizard.ProcessImgDetails | main.py:76-103 | fewer than three newlines asks again and keeps IMG_DETAILS. Otherwise: a template error raises; a missing photo id raises `KeyError`; else the stored photo is sent with the formatted caption and the conversation ends. The chat's data never changes |
| Wizard.Cancel | main.py:108-110 | `/cancel` ends the conversation without touching the chat's data |
| Wizard.OnlyFirstFourLines | main.py:77-97 | lines after the fourth do not change the outcome |
| Wizard.DefaultDetailsCaption | main.py:76-103 | with no template or qualities set, four lines give the built-in caption filled with the trimmed lines and the joined default qualities |
| Bot.Converse | main.py:115-128 | the conversation touches only its own chat and never the banned set. An exception leaves everything as it was and can only come from the details handler |
| Bot.Configure | main.py:130-134 | the five commands always answer once. They never touch the conversation state or the stored photo. Only an admin's `/ban` changes the banned set. `/start` changes nothing at all and sends only its fixed reply. `/setquality`, `/setcaption` and `/setbatch` give the chat exactly the data and reply their handler computes, and `/ban` gives exactly its handler's banned set and reply |
| Bot.Step | main.py:115-135 | one update changes only its own chat. The banned set only grows, and only through an admin's `/ban`. A raised exception changes nothing and sends nothing |
| Bot.StepConsistent | main.py:65-74 | every update keeps the invariant that a chat waiting for details has a stored photo |
| Bot.StepNeverMissesPhoto | main.py:99 | from a consistent state, the photo lookup never fails; the only possible exception is a bad template |
| Bot.CancelEnds | main.py:118-127 | `/cancel` in IMAGE_WAIT or IMG_DETAILS returns to idle, replies once and changes no chat's data |
| Bot.CancelWhenIdle | main.py:127 | outside a conversation `/cancel` is not handled |
| Bot.NotHandled | main.py:115-128 | a message that no cell of the table accepts (in idle anything but `/imgcap`; in IMAGE_WAIT anything but a photo or `/cancel`; in IMG_DETAILS anything but text or `/cancel`; never a configuration command) changes nothing and gets no reply |
| Bot.DetailsFault | main.py:92-99 | an exception raised by the details handler is reported by the update, which changes nothing and sends nothing |
| Bot.ImgcapOnlyFromIdle | main.py:115-116 | `/imgcap` starts a conversation from idle and is ignored inside one |
| Bot.UsageChangesNothing | main.py:25-28 | `/setquality`, `/setcaption` or `/setbatch` without an argument only replies with its usage |
| Bot.BanStep | main.py:41-51 | an update carrying `/ban` from a non-admin changes nothing and is refused. From an admin with an argument it bans exactly the trimmed name without its leading `@`s and says so. No chat's data or conversation changes |
| Bot.SetQualityStep | main.py:24-31 | an update carrying `/setquality` with an argument sets the chat's qualities to the trimmed comma-separated entries (one more than the commas), changes nothing else, and replies with the printed list |
| Bot.CommandKeepsConversation | main.py:130-135 | the configuration commands never move a conversation or touch the stored photo |
| Bot.PhotoStep | main.py:118-119 | in IMAGE_WAIT, a photo stores its last size's id and moves on. Any other non-command message is not handled |
| Bot.TooFewDetails | main.py:77-80 | in IMG_DETAILS, text with fewer than four lines (empty lines count) keeps the state and the data and asks again |
| Bot.Run | main.py:137 | a run of updates never shrinks the banned set and sends at most one reply per update |
| Bot.RunConsistent | main.py:65-74 | the invariant holds after any run of updates that starts from it |
| Bot.InitialConsistent | main.py:115-128 | the bot starts with no chat data, no conversation and nobody banned. That state is consistent, so the invariant holds after every run from it |
| Bot.CaptionConversation | main.py:61-103 | in a fresh chat, `/imgcap`, a photo and four lines give the two prompts, then the photo's largest size with the built-in caption, and end the conversation |

## Left out

- Telegram transport, `async`, `run_polling` and message delivery: replies are returned values (`Store.Reply`), and HTML rendering of the caption is not modelled.
- Loading `.env` and parsing `ADMIN_IDS` and `DEFAULT_QUALITIES` from the environment: both are fields of `Store.Config`, fixed for a run.
- Conversation keying per user within a chat, timeouts and re-entry: these are settings inside python-telegram-bot. The model keys conversations by chat alone, and `/imgcap` is handled only from idle.
- The full `str.format` mini-language: format specs (`{name:>10}`), conversions (`{name!r}`), positional, attribute and index fields are all treated as an unknown field (`Template.FormatError.UnknownField`), i.e. as an error.
- Template.Parse: a field name is read up to the first `}`, while Python counts nested braces. `"{a{b}}"` therefore fails as `UnknownField("a{b")` and not as Python's `KeyError('a{b}')`, and `"{a{b}"` fails as an unknown field and not as Python's `ValueError`. Both still fail, because no such name is one of the five fields.
- Commands.Start: the contract promises only a non-empty text reply. The wording "Bot is running!" is the body's constant and is not restated; that `/start` changes no state is stated on `Bot.Configure`.
- Surrogate code points: a Dafny `char` is a Unicode scalar value, so strings holding the surrogates U+D800 to U+DFFF, which a Python `str` decoded from JSON can hold, are not modelled.
- PyRepr.Repr: non-ASCII characters are treated as printable, so the `\x`, `\u` and `\U` escapes Python uses for non-printable non-ASCII characters are not modelled.
- Enforcement of the banned set: it is written but never read, so no handler consults it.
- `update.effective_user` being absent, and exceptions other than a bad template or a missing photo id: a raised exception is reported in `Bot.StepResult.fault` and is not logged.

=== FILE: bot.dfy ===
/**
 * The handler table of `main()`: five command handlers, then the
 * conversation, in that order; the first that accepts an update handles it.
 * The bot's state is every chat's data, every chat's conversation state and
 * the banned set, and `Step` is one update's effect on it.
 */
module Bot {

  import opened Wrappers
  import opened Store
  import PyStr
  import PyRepr
  import Commands
  import Wizard
  import Template

  /** The command a message starts with, as the transport recognises it. */
  datatype Command = StartCmd | SetQualityCmd | SetCaptionCmd | BanCmd | SetBatchCmd | ImgcapCmd | CancelCmd | OtherCmd

  /** An incoming message, classified by the transport. */
  datatype Message =
    | CommandMsg(cmd: Command, text: string) // text starting with a bot command
    | TextMsg(text: string)                  // any other text
    | PhotoMsg(photos: seq<FileId>)          // a photo, in every size Telegram offers, smallest first
    | OtherMsg                               // stickers, documents, ...

  datatype Update = Update(chatId: int, userId: int, msg: Message)

  /** Everything the handlers read or write. */
  datatype BotState = BotState(chats: map<int, ChatData>, convs: map<int, Wizard.ConvState>, banned: set<string>)

  /** The bot afterwards, the replies sent, and the exception a handler raised, if any. */
  datatype StepResult = StepResult(bot: BotState, replies: seq<Reply>, fault: Option<Wizard.Fault>)

  /** A chat's data, empty until first written. */
  function ChatOf(bot: BotState, chatId: int): ChatData
  {
    if chatId in bot.chats then bot.chats[chatId] else EmptyChat
  }

  /** A chat's conversation state, `Idle` until a conversation starts. */
  function StateOf(bot: BotState, chatId: int): Wizard.ConvState
  {
    if chatId in bot.convs then bot.convs[chatId] else Wizard.Idle
  }

  /** Writes a chat's data and sends one reply; nothing else changes. */
  function WithChat(bot: BotState, chatId: int, chat: ChatData, reply: Reply): (r: StepResult)
    ensures r.bot.convs == bot.convs && r.bot.banned == bot.banned
    ensures ChatOf(r.bot, chatId) == chat
    ensures forall id :: id != chatId ==> ChatOf(r.bot, id) == ChatOf(bot, id)
    ensures r.fault.None? && r.replies == [reply]
  {
    StepResult(bot.(chats := bot.chats[chatId := chat]), [reply], None)
  }

  /** Applies a conversation handler's outcome to its chat; other chats and the banned set stay. */
  function Apply(bot: BotState, chatId: int, o: Wizard.Outcome): (r: StepResult)
    ensures r.bot.banned == bot.banned
    ensures ChatOf(r.bot, chatId) == o.chat && StateOf(r.bot, chatId) == o.next
    ensures forall id :: id != chatId ==> ChatOf(r.bot, id) == ChatOf(bot, id) && StateOf(r.bot, id) == StateOf(bot, id)
    ensures r.fault.None? && r.replies == [o.reply]
  {
    StepResult(bot.(chats := bot.chats[chatId := o.chat], convs := bot.convs[chatId := o.next]), [o.reply], None)
  }

  /** What the conversation does with a message, if any of the current state's handlers (or the `/cancel` fallback) accepts it. */
  function Converse(config: Config, bot: BotState, chatId: int, msg: Message): (r: StepResult)
    ensures r.bot.banned == bot.banned
    ensures forall id :: id != chatId ==> ChatOf(r.bot, id) == ChatOf(bot, id) && StateOf(r.bot, id) == StateOf(bot, id)
    ensures r.fault.Some? ==>
      && r.bot == bot && r.replies == []
      && StateOf(bot, chatId) == Wizard.ImgDetails
      && (r.fault.value.MissingKey? ==> ChatOf(bot, chatId).imgFileId.None?)
    ensures r.fault.None? ==> |r.replies| <= 1
  {
    var chat := ChatOf(bot, chatId);
    var unhandled := StepResult(bot, [], None);
    match StateOf(bot, chatId)
    case Idle =>
      if msg.CommandMsg? && msg.cmd == ImgcapCmd then Apply(bot, chatId, Wizard.ImgcapStart(chat)) else unhandled
    case ImageWait =>
      if msg.PhotoMsg? && msg.photos != [] then Apply(bot, chatId, Wizard.ProcessImg(chat, msg.photos))
      else if msg.CommandMsg? && msg.cmd == CancelCmd then Apply(bot, chatId, Wizard.Cancel(chat))
      else unhandled
    case ImgDetails =>
      if msg.TextMsg? && msg.text != [] then
        match Wizard.ProcessImgDetails(config, chat, msg.text)
        case Ok(o) => Apply(bot, chatId, o)
        case Err(f) => StepResult(bot, [], Some(f))
      else if msg.CommandMsg? && msg.cmd == CancelCmd then Apply(bot, chatId, Wizard.Cancel(chat))
      else unhandled
  }

  /** The commands registered before the conversation. */
  predicate IsConfigCommand(cmd: Command) {
    cmd == StartCmd || cmd == SetQualityCmd || cmd == SetCaptionCmd || cmd == BanCmd || cmd == SetBatchCmd
  }

  /**
   * The five command handlers: each answers once and never raises; only
   * `/ban` from an admin touches the banned set, and none touches the
   * conversation or the stored photo.
   */
  function Configure(config: Config, bot: BotState, chatId: int, userId: int, cmd: Command, text: string): (r: StepResult)
    requires IsConfigCommand(cmd)
    ensures r.bot.convs == bot.convs
    ensures forall id :: id != chatId ==> ChatOf(r.bot, id) == ChatOf(bot, id)
    ensures ChatOf(r.bot, chatId).imgFileId == ChatOf(bot, chatId).imgFileId
    ensures bot.banned <= r.bot.banned
    ensures r.bot.banned != bot.banned ==> cmd == BanCmd && userId in config.adminIds
    ensures r.fault.None? && |r.replies| == 1
    ensures cmd == StartCmd ==> r.bot == bot && r.replies == [Commands.Start()]
    ensures cmd == SetQualityCmd ==>
      var h := Commands.SetQuality(ChatOf(bot, chatId), text);
      ChatOf(r.bot, chatId) == h.chat && r.replies == [h.reply] && r.bot.banned == bot.banned
    ensures cmd == SetCaptionCmd ==>
      var h := Commands.SetCaption(ChatOf(bot, chatId), text);
      ChatOf(r.bot, chatId) == h.chat && r.replies == [h.reply] && r.bot.banned == bot.banned
    ensures cmd == SetBatchCmd ==>
      var h := Commands.SetBatch(ChatOf(bot, chatId), text);
      ChatOf(r.bot, chatId) == h.chat && r.replies == [h.reply] && r.bot.banned == bot.banned
    ensures cmd == BanCmd ==>
      var h := Commands.Ban(config, bot.banned, userId, text);
      r.bot.banned == h.banned && ChatOf(r.bot, chatId) == ChatOf(bot, chatId) && r.replies == [h.reply]
  {
    var chat := ChatOf(bot, chatId);
    match cmd
    case StartCmd => StepResult(bot, [Commands.Start()], None)
    case SetQualityCmd =>
      var r := Commands.SetQuality(chat, text); WithChat(bot, chatId, r.chat, r.reply)
    case SetCaptionCmd =>
      var r := Commands.SetCaption(chat, text); WithChat(bot, chatId, r.chat, r.reply)
    case BanCmd =>
      var r := Commands.Ban(config, bot.banned, userId, text);
      StepResult(bot.(banned := r.banned), [r.reply], None)
    case SetBatchCmd =>
      var r := Commands.SetBatch(chat, text); WithChat(bot, chatId, r.chat, r.reply)
  }

  /** One update, dispatched through the handler table in its registration order. */
  function Step(config: Config, bot: BotState, u: Update): (r: StepResult)
    ensures forall id :: id != u.chatId ==> ChatOf(r.bot, id) == ChatOf(bot, id) && StateOf(r.bot, id) == StateOf(bot, id)
    ensures bot.banned <= r.bot.banned
    ensures r.bot.banned != bot.banned ==> u.msg.CommandMsg? && u.msg.cmd == BanCmd && u.userId in config.adminIds
    ensures r.fault.Some? ==>
      && r.bot == bot && r.replies == []
      && StateOf(bot, u.chatId) == Wizard.ImgDetails
      && (r.fault.value.MissingKey? ==> ChatOf(bot, u.chatId).imgFileId.None?)
    ensures r.fault.None? ==> |r.replies| <= 1
  {
    if u.msg.CommandMsg? && IsConfigCommand(u.msg.cmd) then
      Configure(config, bot, u.chatId, u.userId, u.msg.cmd, u.msg.text)
    else Converse(config, bot, u.chatId, u.msg)
  }

  /** The conversation invariant: a chat waiting for details has a stored photo. */
  ghost predicate Consistent(bot: BotState) {
    forall id :: StateOf(bot, id) == Wizard.ImgDetails ==> ChatOf(bot, id).imgFileId.Some?
  }

  /** The bot as it starts: no chat has data or a conversation, and nobody is banned. */
  const Initial: BotState := BotState(map[], map[], {})

  /** The bot starts consistent, so by `RunConsistent` it stays consistent over any run. */
  lemma InitialConsistent(config: Config, us: seq<Update>)
    ensures Consistent(Initial)
    ensures Consistent(Run(config, Initial, us).bot)
  {
    RunConsistent(config, Initial, us);
  }

  /** Every step keeps a photo stored for each chat waiting for details. */
  lemma StepConsistent(config: Config, bot: BotState, u: Update)
    requires Consistent(bot)
    ensures Consistent(Step(config, bot, u).bot)
  {
    var r := Step(config, bot, u);
    forall id | StateOf(r.bot, id) == Wizard.ImgDetails ensures ChatOf(r.bot, id).imgFileId.Some? {
      if id == u.chatId {
        UpdatedChatConsistent(config, bot, u);
      }
    }
  }

  /** The chat an update is for keeps the invariant: only a photo moves it into IMG_DETAILS, and that stores the photo. */
  lemma UpdatedChatConsistent(config: Config, bot: BotState, u: Update)
    requires StateOf(bot, u.chatId) == Wizard.ImgDetails ==> ChatOf(bot, u.chatId).imgFileId.Some?
    ensures var r := Step(config, bot, u);
            StateOf(r.bot, u.chatId) == Wizard.ImgDetails ==> ChatOf(r.bot, u.chatId).imgFileId.Some?
  {
    var c := u.chatId;
    var chat := ChatOf(bot, c);
    match u.msg
    case CommandMsg(cmd, text) =>
      if cmd == SetQualityCmd {
        assert ChatOf(Step(config, bot, u).bot, c).imgFileId == chat.imgFileId;
      } else if cmd == SetCaptionCmd {
        assert ChatOf(Step(config, bot, u).bot, c).imgFileId == chat.imgFileId;
      } else if cmd == SetBatchCmd {
        assert ChatOf(Step(config, bot, u).bot, c).imgFileId == chat.imgFileId;
      }
    case TextMsg(text) =>
    case PhotoMsg(photos) =>
    case OtherMsg =>
  }

  /** From a consistent state the details handler never looks up a missing photo: its only possible exception is a bad template. */
  lemma StepNeverMissesPhoto(config: Config, bot: BotState, u: Update)
    requires Consistent(bot)
    ensures Step(config, bot, u).fault.Some? ==> Step(config, bot, u).fault.value.FormatFailed?
  {
  }

  /** `/cancel` in either conversation state ends the conversation and leaves every chat's data as it was. */
  lemma CancelEnds(config: Config, bot: BotState, chatId: int, userId: int, text: string)
    requires StateOf(bot, chatId) != Wizard.Idle
    ensures var r := Step(config, bot, Update(chatId, userId, CommandMsg(CancelCmd, text)));
            && StateOf(r.bot, chatId) == Wizard.Idle
            && (forall id :: ChatOf(r.bot, id) == ChatOf(bot, id))
            && r.bot.banned == bot.banned
            && r.replies == [Text(Wizard.Cancelled)]
  {
  }

  /** Outside a conversation `/cancel` is not handled at all. */
  lemma CancelWhenIdle(config: Config, bot: BotState, chatId: int, userId: int, text: string)
    requires StateOf(bot, chatId) == Wizard.Idle
    ensures Step(config, bot, Update(chatId, userId, CommandMsg(CancelCmd, text))) == StepResult(bot, [], None)
  {
  }

  /**
   * The cells of the handler table where nothing answers: a message that is
   * neither a configuration command nor accepted by the current state's
   * handlers (or the `/cancel` fallback) changes nothing and gets no reply.
   */
  lemma NotHandled(config: Config, bot: BotState, chatId: int, userId: int, msg: Message)
    requires !(msg.CommandMsg? && IsConfigCommand(msg.cmd))
    requires StateOf(bot, chatId) == Wizard.Idle ==> !(msg.CommandMsg? && msg.cmd == ImgcapCmd)
    requires StateOf(bot, chatId) == Wizard.ImageWait ==>
      !(msg.PhotoMsg? && msg.photos != []) && !(msg.CommandMsg? && msg.cmd == CancelCmd)
    requires StateOf(bot, chatId) == Wizard.ImgDetails ==>
      !(msg.TextMsg? && msg.text != []) && !(msg.CommandMsg? && msg.cmd == CancelCmd)
    ensures Step(config, bot, Update(chatId, userId, msg)) == StepResult(bot, [], None)
  {
  }

  /** An exception from the details handler is reported, and the update changes nothing and sends nothing. */
  lemma DetailsFault(config: Config, bot: BotState, chatId: int, userId: int, text: string, f: Wizard.Fault)
    requires StateOf(bot, chatId) == Wizard.ImgDetails && text != []
    requires Wizard.ProcessImgDetails(config, ChatOf(bot, chatId), text) == Err(f)
    ensures Step(config, bot, Update(chatId, userId, TextMsg(text))) == StepResult(bot, [], Some(f))
  {
  }

  /** `/imgcap` starts a conversation only from `Idle`; inside one it is not handled. */
  lemma ImgcapOnlyFromIdle(config: Config, bot: BotState, chatId: int, userId: int, text: string)
    ensures var r := Step(config, bot, Update(chatId, userId, CommandMsg(ImgcapCmd, text)));
            if StateOf(bot, chatId) == Wizard.Idle then
              && StateOf(r.bot, chatId) == Wizard.ImageWait
              && (forall id :: ChatOf(r.bot, id) == ChatOf(bot, id))
              && r.replies == [Text(Wizard.PhotoPrompt)]
            else r == StepResult(bot, [], None)
  {
  }

  /** A `/setquality`, `/setcaption` or `/setbatch` without an argument only replies with its usage. */
  lemma UsageChangesNothing(config: Config, bot: BotState, chatId: int, userId: int, cmd: Command, text: string)
    requires cmd == SetQualityCmd || cmd == SetCaptionCmd || cmd == SetBatchCmd
    requires PyStr.Argument(text).None?
    ensures var r := Step(config, bot, Update(chatId, userId, CommandMsg(cmd, text)));
            && (forall id :: ChatOf(r.bot, id) == ChatOf(bot, id) && StateOf(r.bot, id) == StateOf(bot, id))
            && r.bot.banned == bot.banned
            && r.replies == [Text(if cmd == SetQualityCmd then Commands.QualityUsage
                                  else if cmd == SetCaptionCmd then Commands.CaptionUsage
                                  else Commands.BatchUsage)]
  {
  }

  /** `/ban` through the handler table: an admin with an argument bans exactly its name; anyone else is refused and nothing changes. */
  lemma BanStep(config: Config, bot: BotState, chatId: int, userId: int, text: string)
    ensures var r := Step(config, bot, Update(chatId, userId, CommandMsg(BanCmd, text)));
            && (forall id :: ChatOf(r.bot, id) == ChatOf(bot, id) && StateOf(r.bot, id) == StateOf(bot, id))
            && (userId !in config.adminIds ==> r.bot == bot && r.replies == [Text(Commands.NotAuthorized)])
            && (userId in config.adminIds && PyStr.Argument(text).Some? ==>
                  var name := Commands.BanName(PyStr.Argument(text).value);
                  r.bot.banned == bot.banned + {name} && r.replies == [Text("User @" + name + " banned.")])
  {
    var h := Commands.Ban(config, bot.banned, userId, text);
    var r := Step(config, bot, Update(chatId, userId, CommandMsg(BanCmd, text)));
    assert r == Configure(config, bot, chatId, userId, BanCmd, text);
    assert r == StepResult(bot.(banned := h.banned), [h.reply], None);
  }

  /** `/setquality` with an argument, through the handler table: the chat's qualities become the trimmed comma-separated entries, and the reply prints them. */
  lemma SetQualityStep(config: Config, bot: BotState, chatId: int, userId: int, text: string)
    requires PyStr.Argument(text).Some?
    ensures var r := Step(config, bot, Update(chatId, userId, CommandMsg(SetQualityCmd, text)));
            var arg := PyStr.Argument(text).value;
            && r.bot.banned == bot.banned && r.bot.convs == bot.convs
            && ChatOf(r.bot, chatId).qualities.Some?
            && var qs := ChatOf(r.bot, chatId).qualities.value;
            && ChatOf(r.bot, chatId) == ChatOf(bot, chatId).(qualities := Some(qs))
            && |qs| == PyStr.Count(arg, ',') + 1
            && (forall i :: 0 <= i < |qs| ==> qs[i] == PyStr.Strip(PyStr.Split(arg, ',')[i]))
            && r.replies == [Text("Qualities set to: " + PyRepr.ReprList(qs))]
  {
  }

  /** A configuration command changes only its own key of the chat's data, and never the conversation. */
  lemma CommandKeepsConversation(config: Config, bot: BotState, u: Update)
    requires u.msg.CommandMsg? && IsConfigCommand(u.msg.cmd)
    ensures var r := Step(config, bot, u);
            && (forall id :: StateOf(r.bot, id) == StateOf(bot, id))
            && ChatOf(r.bot, u.chatId).imgFileId == ChatOf(bot, u.chatId).imgFileId
  {
  }

  /** In IMAGE_WAIT a photo stores its last size's id and moves on; anything but a photo or `/cancel` is not handled. */
  lemma PhotoStep(config: Config, bot: BotState, chatId: int, userId: int, msg: Message)
    requires StateOf(bot, chatId) == Wizard.ImageWait
    requires !msg.CommandMsg?
    ensures var r := Step(config, bot, Update(chatId, userId, msg));
            if msg.PhotoMsg? && msg.photos != [] then
              && StateOf(r.bot, chatId) == Wizard.ImgDetails
              && ChatOf(r.bot, chatId) == ChatOf(bot, chatId).(imgFileId := Some(msg.photos[|msg.photos| - 1]))
              && r.replies == [Text(Wizard.DetailsPrompt)]
            else r == StepResult(bot, [], None)
  {
  }

  /** In IMG_DETAILS, text of fewer than four lines (empty lines count) keeps the state and the chat's data and asks again. */
  lemma TooFewDetails(config: Config, bot: BotState, chatId: int, userId: int, text: string)
    requires StateOf(bot, chatId) == Wizard.ImgDetails
    requires text != [] && PyStr.Count(text, '\n') < 3
    ensures var r := Step(config, bot, Update(chatId, userId, TextMsg(text)));
            && StateOf(r.bot, chatId) == Wizard.ImgDetails
            && (forall id :: ChatOf(r.bot, id) == ChatOf(bot, id))
            && r.replies == [Text(Wizard.DetailsAgain)]
  {
  }

  // ---- Runs of updates ----

  datatype RunResult = RunResult(bot: BotState, replies: seq<Reply>)

  /** Updates handled one after another; the replies of all of them, in order. */
  function Run(config: Config, bot: BotState, us: seq<Update>): (r: RunResult)
    ensures bot.banned <= r.bot.banned
    ensures |r.replies| <= |us|
    decreases |us|
  {
    if us == [] then RunResult(bot, [])
    else
      var s := Step(config, bot, us[0]);
      var rest := Run(config, s.bot, us[1..]);
      RunResult(rest.bot, s.replies + rest.replies)
  }

  /** The conversation invariant holds after any run that starts from it. */
  lemma {:induction false} RunConsistent(config: Config, bot: BotState, us: seq<Update>)
    requires Consistent(bot)
    ensures Consistent(Run(config, bot, us).bot)
    decreases |us|
  {
    if us != [] {
      StepConsistent(config, bot, us[0]);
      RunConsistent(config, Step(config, bot, us[0]).bot, us[1..]);
    }
  }

  /** In a fresh chat, `/imgcap` then a photo leave the chat waiting for details with the photo's last size stored. */
  lemma StartThenPhoto(config: Config, bot: BotState, u1: Update, u2: Update)
    requires u1.chatId == u2.chatId && u1.chatId !in bot.chats && u1.chatId !in bot.convs
    requires u1.msg.CommandMsg? && u1.msg.cmd == ImgcapCmd
    requires u2.msg.PhotoMsg? && u2.msg.photos != []
    ensures var s1 := Step(config, bot, u1);
            var s2 := Step(config, s1.bot, u2);
            && s1.replies == [Text(Wizard.PhotoPrompt)]
            && s2.replies == [Text(Wizard.DetailsPrompt)]
            && StateOf(s2.bot, u1.chatId) == Wizard.ImgDetails
            && ChatOf(s2.bot, u1.chatId) == EmptyChat.(imgFileId := Some(u2.msg.photos[|u2.msg.photos| - 1]))
  {
    var s1 := Step(config, bot, u1);
    assert ChatOf(s1.bot, u1.chatId) == EmptyChat;
    assert StateOf(s1.bot, u1.chatId) == Wizard.ImageWait;
  }

  lemma RunOne(config: Config, bot: BotState, u: Update)
    ensures Run(config, bot, [u]) == RunResult(Step(config, bot, u).bot, Step(config, bot, u).replies)
  {
    assert [u][1..] == [];
    assert Step(config, bot, u).replies + [] == Step(config, bot, u).replies;
  }

  /** In IMG_DETAILS, non-empty text goes to the details handler, and what it returns is applied to the chat. */
  lemma DetailsStep(config: Config, bot: BotState, u: Update, o: Wizard.Outcome)
    requires StateOf(bot, u.chatId) == Wizard.ImgDetails
    requires u.msg.TextMsg? && u.msg.text != []
    requires Wizard.ProcessImgDetails(config, ChatOf(bot, u.chatId), u.msg.text) == Ok(o)
    ensures Step(config, bot, u) == Apply(bot, u.chatId, o)
  {
  }

  /** Three updates in a row: each step starts where the previous one ended, and the replies are concatenated. */
  lemma RunThree(config: Config, bot: BotState, us: seq<Update>)
    requires |us| == 3
    ensures var s1 := Step(config, bot, us[0]);
            var s2 := Step(config, s1.bot, us[1]);
            var s3 := Step(config, s2.bot, us[2]);
            Run(config, bot, us) == RunResult(s3.bot, s1.replies + s2.replies + s3.replies)
  {
    var s1 := Step(config, bot, us[0]);
    var s2 := Step(config, s1.bot, us[1]);
    assert us[1..][1..] == [us[2]];
    RunOne(config, s2.bot, us[2]);
  }

  /** Four detail lines sent to a chat waiting for them, with only a photo id stored, give the built-in caption. */
  lemma DefaultDetailsStep(config: Config, bot: BotState, chatId: int, userId: int, id: FileId, lines: seq<string>)
    requires StateOf(bot, chatId) == Wizard.ImgDetails
    requires ChatOf(bot, chatId) == EmptyChat.(imgFileId := Some(id))
    requires |lines| == 4
    requires forall i :: 0 <= i < 4 ==> '\n' !in lines[i]
    ensures var v := Template.Values(PyStr.Strip(lines[0]), PyStr.Strip(lines[1]), PyStr.Strip(lines[2]),
                                     PyStr.Strip(lines[3]), PyStr.Join(config.defaultQualities, ", "));
            var r := Step(config, bot, Update(chatId, userId, TextMsg(PyStr.Join(lines, "\n"))));
            && StateOf(r.bot, chatId) == Wizard.Idle
            && r.replies == [Photo(id, Template.Concat(Template.DefaultCaptionLines(v)), "HTML")]
  {
    var chat := ChatOf(bot, chatId);
    var text := PyStr.Join(lines, "\n");
    assert text != [] by {
      assert text == lines[0] + "\n" + PyStr.Join(lines[1..], "\n");
    }
    Wizard.DefaultDetailsCaption(config, chat, lines);
    var v := Template.Values(PyStr.Strip(lines[0]), PyStr.Strip(lines[1]), PyStr.Strip(lines[2]),
                             PyStr.Strip(lines[3]), PyStr.Join(config.defaultQualities, ", "));
    var o := Wizard.Outcome(Wizard.Idle, chat, Photo(id, Template.Concat(Template.DefaultCaptionLines(v)), "HTML"));
    DetailsStep(config, bot, Update(chatId, userId, TextMsg(text)), o);
  }

  /** The whole conversation in a fresh chat: `/imgcap`, a photo, then four lines give the photo's largest size with the built-in caption, and the conversation ends. */
  lemma CaptionConversation(config: Config, bot: BotState, chatId: int, userId: int,
                            photos: seq<FileId>, lines: seq<string>)
    requires chatId !in bot.chats && chatId !in bot.convs
    requires photos != [] && |lines| == 4
    requires forall i :: 0 <= i < 4 ==> '\n' !in lines[i]
    ensures var v := Template.Values(PyStr.Strip(lines[0]), PyStr.Strip(lines[1]), PyStr.Strip(lines[2]),
                                     PyStr.Strip(lines[3]), PyStr.Join(config.defaultQualities, ", "));
            var r := Run(config, bot, [Update(chatId, userId, CommandMsg(ImgcapCmd, "/imgcap")),
                                       Update(chatId, userId, PhotoMsg(photos)),
                                       Update(chatId, userId, TextMsg(PyStr.Join(lines, "\n")))]);
            && StateOf(r.bot, chatId) == Wizard.Idle
            && r.replies == [Text(Wizard.PhotoPrompt), Text(Wizard.DetailsPrompt),
                             Photo(photos[|photos| - 1], Template.Concat(Template.DefaultCaptionLines(v)), "HTML")]
  {
    var us := [Update(chatId, userId, CommandMsg(ImgcapCmd, "/imgcap")),
               Update(chatId, userId, PhotoMsg(photos)),
               Update(chatId, userId, TextMsg(PyStr.Join(lines, "\n")))];
    StartThenPhoto(config, bot, us[0], us[1]);
    var s1 := Step(config, bot, us[0]);
    var s2 := Step(config, s1.bot, us[1]);
    DefaultDetailsStep(config, s2.bot, chatId, userId, photos[|photos| - 1], lines);
    RunThree(config, bot, us);
  }
}

=== FILE: commands.dfy ===
/**
 * The configuration commands: `/setquality`, `/setcaption`, `/ban`,
 * `/setbatch` and `/start`. Each reads its argument the way
 * `text.split(maxsplit=1)` does and answers with one reply; a missing
 * argument gets a usage reply and changes nothing.
 */
module Commands {

  import opened Wrappers
  import opened Store
  import PyStr
  import PyRepr

  /** A handler's effect on the chat's data, and its reply. */
  datatype ChatReply = ChatReply(chat: ChatData, reply: Reply)

  /** A handler's effect on the banned set, and its reply. */
  datatype BanReply = BanReply(banned: set<string>, reply: Reply)

  const QualityUsage: string := "Usage: /setquality quality1,quality2,..."
  const CaptionUsage: string := "Usage: /setcaption <your template>"
  const BanUsage: string := "Usage: /ban @username"
  const BatchUsage: string := "Usage: /setbatch <channel_username_or_id>"
  const NotAuthorized: string := "You are not authorized!"

  /** `[q.strip() for q in parts]`: each piece, in order, with the whitespace at its ends removed. */
  function StripEach(parts: seq<string>): (r: seq<string>)
    ensures |r| == |parts|
    ensures forall i :: 0 <= i < |parts| ==> PyStr.Trimmed(r[i]) && PyStr.Padded(parts[i], r[i])
  {
    seq(|parts|, i requires 0 <= i < |parts| => PyStr.Strip(parts[i]))
  }

  /** `/setquality q1,q2,...`: stores the comma-separated entries, each trimmed, in order. */
  function SetQuality(chat: ChatData, text: string): (r: ChatReply)
    ensures PyStr.Argument(text).None? ==> r.chat == chat && r.reply == Text(QualityUsage)
    ensures PyStr.Argument(text).Some? ==>
      var arg := PyStr.Argument(text).value;
      && r.chat == chat.(qualities := r.chat.qualities)
      && r.chat.qualities.Some?
      && var qs := r.chat.qualities.value;
      && |qs| == PyStr.Count(arg, ',') + 1
      && (forall i :: 0 <= i < |qs| ==> PyStr.Trimmed(qs[i]) && ',' !in qs[i])
      && (forall i :: 0 <= i < |qs| ==> qs[i] == PyStr.Strip(PyStr.Split(arg, ',')[i]))
      && r.reply == Text("Qualities set to: " + PyRepr.ReprList(qs))
  {
    match PyStr.Argument(text)
    case None => ChatReply(chat, Text(QualityUsage))
    case Some(arg) =>
      var qs := StripEach(PyStr.Split(arg, ','));
      assert forall i :: 0 <= i < |qs| ==> ',' !in qs[i] by {
        forall i | 0 <= i < |qs| ensures ',' !in qs[i] {
          StripInfix(PyStr.Split(arg, ',')[i], ',');
        }
      }
      ChatReply(chat.(qualities := Some(qs)), Text("Qualities set to: " + PyRepr.ReprList(qs)))
  }

  /** Stripping keeps only characters of the original. */
  lemma StripInfix(s: string, c: char)
    requires c !in s
    ensures c !in PyStr.Strip(s)
  {
    var r := PyStr.Strip(s);
    var i, j :| 0 <= i <= j <= |s| && s[i..j] == r && PyStr.AllSpace(s[..i]) && PyStr.AllSpace(s[j..]);
    forall k | 0 <= k < |r| ensures r[k] != c {
      assert r[k] == s[i + k];
    }
  }

  /** `/setcaption <template>`: stores the text after the command word verbatim. */
  function SetCaption(chat: ChatData, text: string): (r: ChatReply)
    ensures PyStr.Argument(text).None? ==> r.chat == chat && r.reply == Text(CaptionUsage)
    ensures PyStr.Argument(text).Some? ==>
      && r.chat == chat.(captionTemplate := r.chat.captionTemplate)
      && r.chat.captionTemplate.Some?
      && (exists word :: PyStr.SplitsOnce(text, [word, r.chat.captionTemplate.value]))
      && r.reply == Text("Caption template updated!")
  {
    match PyStr.Argument(text)
    case None => ChatReply(chat, Text(CaptionUsage))
    case Some(arg) => ChatReply(chat.(captionTemplate := Some(arg)), Text("Caption template updated!"))
  }

  /** `/setbatch <channel>`: stores the text after the command word, trimmed. */
  function SetBatch(chat: ChatData, text: string): (r: ChatReply)
    ensures PyStr.Argument(text).None? ==> r.chat == chat && r.reply == Text(BatchUsage)
    ensures PyStr.Argument(text).Some? ==>
      && r.chat == chat.(batchChannel := r.chat.batchChannel)
      && r.chat.batchChannel.Some?
      && var channel := r.chat.batchChannel.value;
      && PyStr.Trimmed(channel)
      && PyStr.Padded(PyStr.Argument(text).value, channel)
      && r.reply == Text("Batch channel set to: " + channel)
  {
    match PyStr.Argument(text)
    case None => ChatReply(chat, Text(BatchUsage))
    case Some(arg) =>
      var channel := PyStr.Strip(arg);
      ChatReply(chat.(batchChannel := Some(channel)), Text("Batch channel set to: " + channel))
  }

  /** The name `/ban` records: the argument trimmed, then stripped of every leading `@`. */
  function BanName(arg: string): (name: string)
    ensures var t := PyStr.Strip(arg);
            && |name| <= |t| && name == t[|t| - |name|..]
            && (forall i :: 0 <= i < |t| - |name| ==> t[i] == '@')
            && (name == [] || name[0] != '@')
  {
    PyStr.LStripChar(PyStr.Strip(arg), '@')
  }

  /** `/ban @username`: an admin adds the name to the banned set; anyone else is refused before the text is read. */
  function Ban(config: Config, banned: set<string>, user: int, text: string): (r: BanReply)
    ensures banned <= r.banned
    ensures user !in config.adminIds ==> r.banned == banned && r.reply == Text(NotAuthorized)
    ensures user in config.adminIds && PyStr.Argument(text).None? ==> r.banned == banned && r.reply == Text(BanUsage)
    ensures user in config.adminIds && PyStr.Argument(text).Some? ==>
      var name := BanName(PyStr.Argument(text).value);
      && r.banned == banned + {name}
      && r.reply == Text("User @" + name + " banned.")
  {
    if user !in config.adminIds then BanReply(banned, Text(NotAuthorized))
    else match PyStr.Argument(text)
      case None => BanReply(banned, Text(BanUsage))
      case Some(arg) =>
        var name := BanName(arg);
        BanReply(banned + {name}, Text("User @" + name + " banned."))
  }

  /** Banning the same name again leaves the banned set as it was. */
  lemma BanIdempotent(config: Config, banned: set<string>, user: int, text: string)
    ensures var once := Ban(config, banned, user, text).banned;
            Ban(config, once, user, text).banned == once
  {
  }

  /** `/start`: a fixed acknowledgement. */
  function Start(): (r: Reply)
    ensures r.Text? && |r.text| > 0
  {
    Text("Bot is running!")
  }
}

=== FILE: pystr.dfy ===
/**
 * The handful of Python `str` operations the bot applies to message text:
 * `strip()`, `lstrip(ch)`, `split(sep)`, `split(maxsplit=1)` and `sep.join(parts)`.
 * Strings are sequences of Unicode scalar values; unlike Python's `str`, they
 * cannot hold the surrogates U+D800 to U+DFFF.
 */
module PyStr {

  import opened Wrappers

  /** Python's `str.isspace()` for one code point: the characters `strip()` and `split()` treat as whitespace. */
  predicate IsSpace(c: char) {
    || ('\t' <= c <= '\r')
    || ('\U{1C}' <= c <= ' ')
    || c == '\U{85}' || c == '\U{A0}' || c == '\U{1680}'
    || ('\U{2000}' <= c <= '\U{200A}')
    || c == '\U{2028}' || c == '\U{2029}' || c == '\U{202F}' || c == '\U{205F}' || c == '\U{3000}'
  }

  ghost predicate AllSpace(s: string) {
    forall i :: 0 <= i < |s| ==> IsSpace(s[i])
  }

  ghost predicate NoSpace(s: string) {
    forall i :: 0 <= i < |s| ==> !IsSpace(s[i])
  }

  /** Neither end of `s` is whitespace. */
  predicate Trimmed(s: string) {
    s == [] || (!IsSpace(s[0]) && !IsSpace(s[|s| - 1]))
  }

  /** `r` is `s` with some whitespace removed from each end. */
  ghost predicate Padded(s: string, r: string) {
    exists i, j :: 0 <= i <= j <= |s| && s[i..j] == r && AllSpace(s[..i]) && AllSpace(s[j..])
  }

  /** Length of the whitespace run that starts `s`. */
  function LeadingSpaces(s: string): (n: nat)
    ensures n <= |s|
  {
    if s == [] || !IsSpace(s[0]) then 0 else 1 + LeadingSpaces(s[1..])
  }

  /** Length of the whitespace run that ends `s`. */
  function TrailingSpaces(s: string): (n: nat)
    ensures n <= |s|
  {
    if s == [] || !IsSpace(s[|s| - 1]) then 0 else 1 + TrailingSpaces(s[..|s| - 1])
  }

  /** `LeadingSpaces` counts whitespace and stops at the first other character. */
  lemma {:induction false} LeadingSpacesRun(s: string)
    ensures AllSpace(s[..LeadingSpaces(s)])
    ensures LeadingSpaces(s) < |s| ==> !IsSpace(s[LeadingSpaces(s)])
  {
    if s != [] && IsSpace(s[0]) {
      LeadingSpacesRun(s[1..]);
      var n := LeadingSpaces(s);
      forall k | 0 <= k < n ensures IsSpace(s[..n][k]) {
        if k > 0 { assert s[..n][k] == s[1..][..n - 1][k - 1]; }
      }
    }
  }

  /** `TrailingSpaces` counts whitespace back from the end and stops at the last other character. */
  lemma {:induction false} TrailingSpacesRun(s: string)
    ensures AllSpace(s[|s| - TrailingSpaces(s)..])
    ensures TrailingSpaces(s) < |s| ==> !IsSpace(s[|s| - 1 - TrailingSpaces(s)])
  {
    if s != [] && IsSpace(s[|s| - 1]) {
      var t := s[..|s| - 1];
      TrailingSpacesRun(t);
      var n := TrailingSpaces(s);
      forall k | |s| - n <= k < |s| ensures IsSpace(s[k]) {
        if k < |s| - 1 { assert s[k] == t[|t| - (n - 1)..][k - (|s| - n)]; }
      }
      if n < |s| {
        assert s[|s| - 1 - n] == t[|t| - 1 - (n - 1)];
      }
    }
  }

  /** Python's `s.strip()`. */
  function Strip(s: string): (r: string)
    ensures Trimmed(r)
    ensures Padded(s, r)
  {
    var i := LeadingSpaces(s);
    var t := s[i..];
    LeadingSpacesRun(s);
    TrailingSpacesRun(t);
    var j := |t| - TrailingSpaces(t);
    assert s[i..i + j] == t[..j];
    assert s[i + j..] == t[j..];
    DropTrailing(t)
  }

  /** `s.rstrip()`: the whitespace run ending `s` removed. */
  function DropTrailing(s: string): string
  {
    s[..|s| - TrailingSpaces(s)]
  }

  /** The whitespace run starting `s` ends exactly where whitespace stops. */
  lemma {:induction false} LeadingSpacesAt(s: string, i: nat)
    requires i <= |s| && AllSpace(s[..i])
    requires i < |s| ==> !IsSpace(s[i])
    ensures LeadingSpaces(s) == i
  {
    if i > 0 {
      assert s[..i][0] == s[0];
      assert s[1..][..i - 1] == s[..i][1..];
      LeadingSpacesAt(s[1..], i - 1);
    }
  }

  /** The whitespace run ending `s` starts exactly where whitespace resumes. */
  lemma {:induction false} TrailingSpacesAt(s: string, j: nat)
    requires j <= |s| && AllSpace(s[j..])
    requires j > 0 ==> !IsSpace(s[j - 1])
    ensures j + TrailingSpaces(s) == |s|
    decreases |s|
  {
    if j < |s| {
      assert s[j..][|s| - 1 - j] == s[|s| - 1];
      var t := s[..|s| - 1];
      assert t[j..] == s[j..][..|s| - 1 - j];
      TrailingSpacesAt(t, j);
    }
  }

  /** The word starting `s` ends exactly where whitespace starts. */
  lemma {:induction false} WordLengthAt(s: string, j: nat)
    requires j <= |s| && NoSpace(s[..j])
    requires j < |s| ==> IsSpace(s[j])
    ensures WordLength(s) == j
  {
    if j > 0 {
      assert s[..j][0] == s[0];
      assert s[1..][..j - 1] == s[..j][1..];
      WordLengthAt(s[1..], j - 1);
    }
  }

  /** `strip()` has exactly one possible answer: any trimmed infix framed by whitespace is it. */
  lemma StripUnique(s: string, r: string)
    requires Trimmed(r) && Padded(s, r)
    ensures r == Strip(s)
  {
    var i, j :| 0 <= i <= j <= |s| && s[i..j] == r && AllSpace(s[..i]) && AllSpace(s[j..]);
    if r == [] {
      StripBlank(s, i, j);
    } else {
      StripFramed(s, i, j);
    }
  }

  /** Text that is all whitespace strips to nothing. */
  lemma StripBlank(s: string, i: nat, j: nat)
    requires i == j <= |s| && AllSpace(s[..i]) && AllSpace(s[j..])
    ensures Strip(s) == []
  {
    assert AllSpace(s[..|s|]) by {
      forall k | 0 <= k < |s| ensures IsSpace(s[k]) {
        if k < i { assert s[..i][k] == s[k]; } else { assert s[j..][k - j] == s[k]; }
      }
    }
    LeadingSpacesAt(s, |s|);
  }

  /** A non-blank infix with non-blank ends, framed by whitespace, is what `strip()` keeps. */
  lemma StripFramed(s: string, i: nat, j: nat)
    requires i < j <= |s| && AllSpace(s[..i]) && AllSpace(s[j..])
    requires !IsSpace(s[i]) && !IsSpace(s[j - 1])
    ensures Strip(s) == s[i..j]
  {
    LeadingSpacesAt(s, i);
    var t := s[i..];
    assert Strip(s) == DropTrailing(t);
    assert t[j - i..] == s[j..];
    TrailingSpacesAt(t, j - i);
    assert t[..j - i] == s[i..j];
  }

  /** Stripping twice is stripping once. */
  lemma StripIdempotent(s: string)
    ensures Strip(Strip(s)) == Strip(s)
  {
    var r := Strip(s);
    assert r[0..|r|] == r;
    assert Padded(r, r);
    StripUnique(r, r);
  }

  /** Python's `s.lstrip(c)` for a single character: every leading `c` removed. */
  function LStripChar(s: string, c: char): (r: string)
    ensures |r| <= |s| && r == s[|s| - |r|..]
    ensures forall i :: 0 <= i < |s| - |r| ==> s[i] == c
    ensures r == [] || r[0] != c
  {
    if s != [] && s[0] == c then LStripChar(s[1..], c) else s
  }

  /** Number of occurrences of `c` in `s`. */
  function Count(s: string, c: char): nat
  {
    if s == [] then 0 else (if s[0] == c then 1 else 0) + Count(s[1..], c)
  }

  lemma {:induction false} CountAppend(a: string, b: string, c: char)
    ensures Count(a + b, c) == Count(a, c) + Count(b, c)
  {
    if a == [] {
      assert a + b == b;
    } else {
      assert (a + b)[1..] == a[1..] + b;
      CountAppend(a[1..], b, c);
    }
  }

  lemma {:induction false} CountAbsent(s: string, c: char)
    requires c !in s
    ensures Count(s, c) == 0
  {
    if s != [] {
      assert c !in s[1..];
      CountAbsent(s[1..], c);
    }
  }

  /** Index of the first `c` in `s`, or `|s|` when there is none. */
  function IndexOf(s: string, c: char): (k: nat)
    ensures k <= |s|
    ensures forall i :: 0 <= i < k ==> s[i] != c
    ensures k < |s| ==> s[k] == c
  {
    if s == [] || s[0] == c then 0 else 1 + IndexOf(s[1..], c)
  }

  /** The first `c` in `s` is found where it is. */
  lemma {:induction false} IndexOfAt(s: string, c: char, k: nat)
    requires k < |s| && s[k] == c && c !in s[..k]
    ensures IndexOf(s, c) == k
  {
    if k > 0 {
      assert s[0] == s[..k][0];
      assert s[1..][..k - 1] == s[..k][1..];
      IndexOfAt(s[1..], c, k - 1);
    }
  }

  /** Python's `sep.join(parts)`. */
  function Join(parts: seq<string>, sep: string): string
  {
    if |parts| == 0 then [] else if |parts| == 1 then parts[0] else parts[0] + sep + Join(parts[1..], sep)
  }

  /** Python's `s.split(sep)` for a one-character separator: empty pieces are kept. */
  function Split(s: string, sep: char): (parts: seq<string>)
    ensures |parts| == Count(s, sep) + 1
    ensures forall i :: 0 <= i < |parts| ==> sep !in parts[i]
    ensures Join(parts, [sep]) == s
    decreases |s|
  {
    var k := IndexOf(s, sep);
    if k == |s| then
      CountAbsent(s, sep);
      [s]
    else
      var rest := Split(s[k + 1..], sep);
      assert s == s[..k] + [sep] + s[k + 1..];
      CountAppend(s[..k] + [sep], s[k + 1..], sep);
      CountAppend(s[..k], [sep], sep);
      CountAbsent(s[..k], sep);
      assert ([s[..k]] + rest)[1..] == rest;
      [s[..k]] + rest
  }

  /** `split` undoes `join`: pieces free of the separator come back unchanged. */
  lemma {:induction false} SplitJoin(parts: seq<string>, sep: char)
    requires |parts| >= 1
    requires forall i :: 0 <= i < |parts| ==> sep !in parts[i]
    ensures Split(Join(parts, [sep]), sep) == parts
    decreases |parts|
  {
    if |parts| == 1 {
      assert IndexOf(parts[0], sep) == |parts[0]|;
    } else {
      var rest := Join(parts[1..], [sep]);
      SplitJoin(parts[1..], sep);
      SplitFirst(parts[0], rest, sep);
      assert parts == [parts[0]] + parts[1..];
    }
  }

  /** Splitting `a + sep + b`, where `a` holds no separator, gives `a` and then the pieces of `b`. */
  lemma SplitFirst(a: string, b: string, sep: char)
    requires sep !in a
    ensures Split(a + [sep] + b, sep) == [a] + Split(b, sep)
  {
    var s := a + [sep] + b;
    var k := |a|;
    assert s[..k] == a;
    IndexOfAt(s, sep, k);
    assert s[k + 1..] == b;
  }

  /** Length of the run of non-whitespace characters that starts `s`. */
  function WordLength(s: string): (n: nat)
    ensures n <= |s|
  {
    if s == [] || IsSpace(s[0]) then 0 else 1 + WordLength(s[1..])
  }

  /** `WordLength` counts non-whitespace and stops at the first whitespace. */
  lemma {:induction false} WordLengthRun(s: string)
    ensures NoSpace(s[..WordLength(s)])
    ensures WordLength(s) < |s| ==> IsSpace(s[WordLength(s)])
  {
    if s != [] && !IsSpace(s[0]) {
      WordLengthRun(s[1..]);
      var n := WordLength(s);
      forall k | 0 <= k < n ensures !IsSpace(s[..n][k]) {
        if k > 0 { assert s[..n][k] == s[1..][..n - 1][k - 1]; }
      }
    }
  }

  /** What `s.split(maxsplit=1)` may return: nothing for blank text, else the first word, then the rest (from its first non-blank character, trailing blanks kept) if any. */
  ghost predicate SplitsOnce(s: string, parts: seq<string>) {
    || (|parts| == 0 && AllSpace(s))
    || (|parts| == 1 && parts[0] != [] && NoSpace(parts[0]) &&
        exists i, j :: 0 <= i <= j <= |s| && AllSpace(s[..i]) && s[i..j] == parts[0] && AllSpace(s[j..]))
    || (|parts| == 2 && parts[0] != [] && NoSpace(parts[0]) && parts[1] != [] && !IsSpace(parts[1][0]) &&
        exists i, j, k :: 0 <= i <= j < k <= |s| && AllSpace(s[..i]) && s[i..j] == parts[0] &&
                          AllSpace(s[j..k]) && s[k..] == parts[1])
  }

  /** Python's `s.split(maxsplit=1)`: split on whitespace runs, at most once. */
  function SplitOnce(s: string): (parts: seq<string>)
    ensures |parts| <= 2
  {
    var i := LeadingSpaces(s);
    if i == |s| then [] else FromWord(s, i)
  }

  /** The split, once the first word is known to start at `i`. */
  function FromWord(s: string, i: nat): seq<string>
    requires i < |s|
  {
    AfterWord(s, i, i + WordLength(s[i..]))
  }

  /** The split, once the first word is known to be `s[i..j]`: the rest starts after the blanks that follow it. */
  function AfterWord(s: string, i: nat, j: nat): (parts: seq<string>)
    requires i <= j <= |s|
    ensures |parts| <= 2
  {
    var k := j + LeadingSpaces(s[j..]);
    if k == |s| then [s[i..j]] else [s[i..j], s[k..]]
  }

  /** What `SplitOnce` returns is a split `split(maxsplit=1)` may return. */
  lemma SplitOnceSplits(s: string)
    ensures SplitsOnce(s, SplitOnce(s))
  {
    var i := LeadingSpaces(s);
    LeadingSpacesRun(s);
    if i == |s| {
      assert s[..i] == s;
    } else {
      var j := i + WordLength(s[i..]);
      var k := j + LeadingSpaces(s[j..]);
      CutPoints(s, i, j, k);
      SplitOnceAt(s, i, j, k);
      if k == |s| {
        assert s[j..] == s[j..k];
        OneWordSplits(s, i, j);
      } else {
        TwoPartsSplits(s, i, j, k);
      }
    }
  }

  /** The cut points `SplitOnce` computes frame a word, then a whitespace run, then the rest. */
  lemma CutPoints(s: string, i: nat, j: nat, k: nat)
    requires i < |s| && !IsSpace(s[i])
    requires i + WordLength(s[i..]) == j && j <= |s| && j + LeadingSpaces(s[j..]) == k
    ensures i < j <= k <= |s| && (j < k || k == |s|)
    ensures NoSpace(s[i..j]) && AllSpace(s[j..k])
    ensures k < |s| ==> !IsSpace(s[k])
  {
    WordLengthRun(s[i..]);
    LeadingSpacesRun(s[j..]);
    assert s[i..j] == s[i..][..j - i];
    assert s[j..k] == s[j..][..k - j];
    assert s[i..][0] == s[i];
    if j < |s| {
      assert s[j..][0] == s[j];
    }
  }

  lemma OneWordSplits(s: string, i: nat, j: nat)
    requires i < j <= |s|
    requires AllSpace(s[..i]) && NoSpace(s[i..j]) && AllSpace(s[j..])
    ensures SplitsOnce(s, [s[i..j]])
  {
    assert s[i..j][0] == s[i];
  }

  lemma TwoPartsSplits(s: string, i: nat, j: nat, k: nat)
    requires i < j < k < |s|
    requires AllSpace(s[..i]) && NoSpace(s[i..j]) && AllSpace(s[j..k]) && !IsSpace(s[k])
    ensures SplitsOnce(s, [s[i..j], s[k..]])
  {
    assert s[i..j][0] == s[i];
    assert s[k..][0] == s[k];
  }

  /** The split of `s.split(maxsplit=1)` is the only one `SplitsOnce` admits. */
  lemma SplitOnceUnique(s: string, parts: seq<string>)
    requires SplitsOnce(s, parts)
    ensures parts == SplitOnce(s)
  {
    if |parts| == 0 {
      assert s[..|s|] == s;
      LeadingSpacesAt(s, |s|);
    } else if |parts| == 1 {
      var i, j :| 0 <= i <= j <= |s| && AllSpace(s[..i]) && s[i..j] == parts[0] && AllSpace(s[j..]);
      SplitOnceOneWord(s, i, j);
    } else {
      var i, j, k :| 0 <= i <= j < k <= |s| && AllSpace(s[..i]) && s[i..j] == parts[0] &&
                     AllSpace(s[j..k]) && s[k..] == parts[1];
      SplitOnceTwoParts(s, i, j, k);
    }
  }

  lemma SplitOnceOneWord(s: string, i: nat, j: nat)
    requires i < j <= |s|
    requires AllSpace(s[..i]) && NoSpace(s[i..j]) && AllSpace(s[j..])
    ensures SplitOnce(s) == [s[i..j]]
  {
    assert s[j..|s|] == s[j..];
    WordThenSpaces(s, i, j, |s|);
    SplitOnceAt(s, i, j, |s|);
  }

  lemma SplitOnceTwoParts(s: string, i: nat, j: nat, k: nat)
    requires i < j < k < |s|
    requires AllSpace(s[..i]) && NoSpace(s[i..j]) && AllSpace(s[j..k]) && !IsSpace(s[k])
    ensures SplitOnce(s) == [s[i..j], s[k..]]
  {
    WordThenSpaces(s, i, j, k);
    SplitOnceAt(s, i, j, k);
  }

  /** Once the cut points are known, `SplitOnce` returns the word and, unless only blanks follow it, the rest. */
  lemma SplitOnceAt(s: string, i: nat, j: nat, k: nat)
    requires i < j <= k <= |s|
    requires LeadingSpaces(s) == i && i + WordLength(s[i..]) == j && j + LeadingSpaces(s[j..]) == k
    ensures SplitOnce(s) == if k == |s| then [s[i..j]] else [s[i..j], s[k..]]
  {
    SplitOnceFrom(s, i);
    FromWordTo(s, i, j);
    AfterWordTo(s, i, j, k);
  }

  lemma SplitOnceFrom(s: string, i: nat)
    requires i < |s| && LeadingSpaces(s) == i
    ensures SplitOnce(s) == FromWord(s, i)
  {
  }

  lemma FromWordTo(s: string, i: nat, j: nat)
    requires i < j <= |s| && i + WordLength(s[i..]) == j
    ensures FromWord(s, i) == AfterWord(s, i, j)
  {
  }

  lemma AfterWordTo(s: string, i: nat, j: nat, k: nat)
    requires i < j <= k <= |s| && j + LeadingSpaces(s[j..]) == k
    ensures AfterWord(s, i, j) == if k == |s| then [s[i..j]] else [s[i..j], s[k..]]
  {
  }

  /** Locating the first word and the blanks after it fixes the three cut points `SplitOnce` uses. */
  lemma WordThenSpaces(s: string, i: nat, j: nat, k: nat)
    requires i < j <= k <= |s| && (j < k || k == |s|)
    requires AllSpace(s[..i]) && NoSpace(s[i..j]) && AllSpace(s[j..k])
    requires k < |s| ==> !IsSpace(s[k])
    ensures LeadingSpaces(s) == i
    ensures i + WordLength(s[i..]) == j
    ensures j + LeadingSpaces(s[j..]) == k
  {
    assert !IsSpace(s[i]) by { assert s[i..j][0] == s[i]; }
    LeadingSpacesAt(s, i);
    WordAt(s, i, j, k);
    SpacesAt(s, j, k);
  }

  lemma WordAt(s: string, i: nat, j: nat, k: nat)
    requires i < j <= k <= |s| && (j < k || k == |s|)
    requires NoSpace(s[i..j]) && AllSpace(s[j..k])
    ensures i + WordLength(s[i..]) == j
  {
    var w := s[i..];
    assert w[..j - i] == s[i..j];
    assert j < |s| ==> IsSpace(s[j]) by {
      if j < |s| { assert s[j..k][0] == s[j]; }
    }
    WordLengthAt(w, j - i);
  }

  lemma SpacesAt(s: string, j: nat, k: nat)
    requires j <= k <= |s| && AllSpace(s[j..k])
    requires k < |s| ==> !IsSpace(s[k])
    ensures j + LeadingSpaces(s[j..]) == k
  {
    var v := s[j..];
    assert v[..k - j] == s[j..k];
    LeadingSpacesAt(v, k - j);
  }

  /** The text after a command's first word, as `text.split(maxsplit=1)[1]`; absent when the split has fewer than two parts. */
  function Argument(text: string): (arg: Option<string>)
    ensures arg.Some? ==> exists word :: SplitsOnce(text, [word, arg.value])
    ensures arg.None? ==> exists parts :: |parts| < 2 && SplitsOnce(text, parts)
  {
    var parts := SplitOnce(text);
    SplitOnceSplits(text);
    if |parts| < 2 then None else
      assert parts == [parts[0], parts[1]];
      Some(parts[1])
  }

  /** Whatever `Argument` returns is what `split(maxsplit=1)` gives as its second part, and nothing else could be. */
  lemma ArgumentUnique(text: string, word: string, arg: string)
    requires SplitsOnce(text, [word, arg])
    ensures Argument(text) == Some(arg)
  {
    SplitOnceUnique(text, [word, arg]);
  }

  /** Blank text after the first word always leaves a command without an argument. */
  lemma NoArgument(text: string, parts: seq<string>)
    requires |parts| < 2 && SplitsOnce(text, parts)
    ensures Argument(text).None?
  {
    SplitOnceUnique(text, parts);
  }
}

=== FILE: repr.dfy ===
/**
 * Python's `repr` of a string and of a list of strings, which the bot uses
 * when it echoes a stored quality list back to the chat, together with a
 * reader that recovers the value from its printed form.
 */
module PyRepr {

  import opened Wrappers

  const HexDigits: string := "0123456789abcdef"

  /** The quote `repr` picks: double quotes only when `s` has a single quote and no double quote. */
  function QuoteFor(s: string): (q: char)
    ensures q == '\'' || q == '"'
    ensures q == '"' <==> ('\'' in s && '"' !in s)
  {
    if '\'' in s && '"' !in s then '"' else '\''
  }

  /** ASCII control characters, which `repr` prints as `\xhh`. */
  predicate IsControl(c: char) {
    c < ' ' || c == '\U{7F}'
  }

  /** How one character of `s` is printed inside quotes `q`. */
  function EscapeChar(c: char, q: char): (e: string)
    requires q == '\'' || q == '"'
    ensures |e| == 1 ==> e[0] == c && e[0] != q && e[0] != '\\'
    ensures |e| > 1 ==> e[0] == '\\'
  {
    if c == q || c == '\\' then ['\\', c]
    else if c == '\t' then "\\t"
    else if c == '\n' then "\\n"
    else if c == '\r' then "\\r"
    else if IsControl(c) then ['\\', 'x', HexDigits[c as int / 16], HexDigits[c as int % 16]]
    else [c]
  }

  function EscapeBody(s: string, q: char): string
    requires q == '\'' || q == '"'
  {
    if s == [] then [] else EscapeChar(s[0], q) + EscapeBody(s[1..], q)
  }

  /** Python's `repr(s)` for a string, treating every non-ASCII character as printable. */
  function Repr(s: string): (r: string)
    ensures |r| >= 2 && r[0] == r[|r| - 1] == QuoteFor(s)
  {
    var q := QuoteFor(s);
    [q] + EscapeBody(s, q) + [q]
  }

  /** Python's `repr(xs)` (equally `str(xs)`) for a list of strings. */
  function ReprList(xs: seq<string>): (r: string)
    ensures |r| >= 2 && r[0] == '[' && r[|r| - 1] == ']'
  {
    "[" + ReprItems(xs) + "]"
  }

  function ReprItems(xs: seq<string>): string
  {
    if |xs| == 0 then [] else if |xs| == 1 then Repr(xs[0]) else Repr(xs[0]) + ", " + ReprItems(xs[1..])
  }

  // ---- Reading printed values back ----

  function HexValue(c: char): Option<nat>
  {
    if '0' <= c <= '9' then Some(c as int - '0' as int)
    else if 'a' <= c <= 'f' then Some(c as int - 'a' as int + 10)
    else None
  }

  /** Undoes `EscapeBody`: the escapes `\t`, `\n`, `\r`, `\xhh`, and a backslash before any other character. */
  function Unescape(b: string): Option<string>
  {
    if b == [] then Some([])
    else if b[0] != '\\' then Prepend(b[0], Unescape(b[1..]))
    else if |b| < 2 then None
    else if b[1] == 't' then Prepend('\t', Unescape(b[2..]))
    else if b[1] == 'n' then Prepend('\n', Unescape(b[2..]))
    else if b[1] == 'r' then Prepend('\r', Unescape(b[2..]))
    else if b[1] == 'x' then
      if |b| < 4 || HexValue(b[2]).None? || HexValue(b[3]).None? then None
      else Prepend((16 * HexValue(b[2]).value + HexValue(b[3]).value) as char, Unescape(b[4..]))
    else Prepend(b[1], Unescape(b[2..]))
  }

  function Prepend(c: char, o: Option<string>): Option<string>
  {
    match o
    case Some(s) => Some([c] + s)
    case None => None
  }

  /** Reads a printed string: matching quotes around an escaped body. */
  function Unrepr(r: string): Option<string>
  {
    if |r| >= 2 && (r[0] == '\'' || r[0] == '"') && r[|r| - 1] == r[0] then Unescape(r[1..|r| - 1]) else None
  }

  lemma HexDigitValue(n: nat)
    requires n < 16
    ensures HexValue(HexDigits[n]) == Some(n)
  {
  }

  lemma {:induction false} UnescapeChar(c: char, q: char, rest: string)
    requires q == '\'' || q == '"'
    ensures Unescape(EscapeChar(c, q) + rest) == Prepend(c, Unescape(rest))
  {
    var e := EscapeChar(c, q);
    if c == q || c == '\\' {
      assert (e + rest)[2..] == rest;
    } else if c == '\t' || c == '\n' || c == '\r' {
      assert (e + rest)[2..] == rest;
    } else if IsControl(c) {
      HexDigitValue(c as int / 16);
      HexDigitValue(c as int % 16);
      assert (e + rest)[4..] == rest;
    } else {
      assert (e + rest)[1..] == rest;
    }
  }

  lemma {:induction false} UnescapeEscape(s: string, q: char)
    requires q == '\'' || q == '"'
    ensures Unescape(EscapeBody(s, q)) == Some(s)
  {
    if s != [] {
      UnescapeEscape(s[1..], q);
      UnescapeEscapeStep(s, q);
    }
  }

  /** One step of `UnescapeEscape`: the first character's escape reads back as that character. */
  lemma UnescapeEscapeStep(s: string, q: char)
    requires q == '\'' || q == '"'
    requires s != [] && Unescape(EscapeBody(s[1..], q)) == Some(s[1..])
    ensures Unescape(EscapeBody(s, q)) == Some(s)
  {
    UnescapeHead(s, q);
    assert [s[0]] + s[1..] == s;
  }

  /** Reading an escaped body back starts with its first character. */
  lemma UnescapeHead(s: string, q: char)
    requires q == '\'' || q == '"'
    requires s != []
    ensures Unescape(EscapeBody(s, q)) == Prepend(s[0], Unescape(EscapeBody(s[1..], q)))
  {
    var t := EscapeBody(s[1..], q);
    assert EscapeBody(s, q) == EscapeChar(s[0], q) + t;
    UnescapeChar(s[0], q, t);
  }

  /** Reading back what `repr` printed gives the original string. */
  lemma ReprRoundTrip(s: string)
    ensures Unrepr(Repr(s)) == Some(s)
  {
    var r := Repr(s);
    assert r[1..|r| - 1] == EscapeBody(s, QuoteFor(s));
    UnescapeEscape(s, QuoteFor(s));
  }

  /**
   * When the string does not hold both kinds of quote, the quote `repr`
   * picks does not occur in it; such a string with no backslash and no
   * control character is printed as itself between quotes, with nothing
   * escaped.
   */
  lemma ReprNeedsNoEscape(s: string)
    requires '\\' !in s && !('\'' in s && '"' in s)
    requires forall i :: 0 <= i < |s| ==> !IsControl(s[i])
    ensures QuoteFor(s) !in s
    ensures Repr(s) == [QuoteFor(s)] + s + [QuoteFor(s)]
  {
    EscapeBodyPlain(s, QuoteFor(s));
  }

  /** Characters that are neither the quote, a backslash nor a control character are printed as they are. */
  lemma {:induction false} EscapeBodyPlain(s: string, q: char)
    requires q == '\'' || q == '"'
    requires q !in s && '\\' !in s
    requires forall i :: 0 <= i < |s| ==> !IsControl(s[i])
    ensures EscapeBody(s, q) == s
  {
    if s != [] {
      assert s[0] in s;
      EscapeCharPlain(s[0], q);
      assert q !in s[1..] && '\\' !in s[1..];
      assert forall i :: 0 <= i < |s[1..]| ==> s[1..][i] == s[i + 1];
      EscapeBodyPlain(s[1..], q);
      assert EscapeBody(s, q) == EscapeChar(s[0], q) + EscapeBody(s[1..], q);
      assert [s[0]] + s[1..] == s;
    }
  }

  lemma EscapeCharPlain(c: char, q: char)
    requires q == '\'' || q == '"'
    requires c != q && c != '\\' && !IsControl(c)
    ensures EscapeChar(c, q) == [c]
  {
  }

  function Shift(n: nat, o: Option<nat>): Option<nat>
  {
    match o
    case Some(k) => Some(n + k)
    case None => None
  }

  /** Position in `b` of the first quote `q` not preceded by an escaping backslash. */
  function CloseQuote(b: string, q: char): (o: Option<nat>)
    ensures o.Some? ==> o.value < |b| && b[o.value] == q
    decreases |b|
  {
    if b == [] then None
    else if b[0] == q then Some(0)
    else if b[0] == '\\' then (if |b| < 2 then None else Shift(2, CloseQuote(b[2..], q)))
    else Shift(1, CloseQuote(b[1..], q))
  }

  /** Reads comma-separated printed strings, as they stand between a list's brackets. */
  function ReadItems(b: string): Option<seq<string>>
    decreases |b|, 1
  {
    if b == [] || (b[0] != '\'' && b[0] != '"') then None
    else match CloseQuote(b[1..], b[0])
      case None => None
      case Some(k) => ReadRest(Unescape(b[1..1 + k]), b[k + 2..])
  }

  /** After one printed string: the list ends, or `, ` and further items follow. */
  function ReadRest(item: Option<string>, rest: string): Option<seq<string>>
    decreases |rest|, 0
  {
    if item.None? then None
    else if rest == [] then Some([item.value])
    else if |rest| >= 2 && rest[..2] == ", " then PrependItem(item.value, ReadItems(rest[2..]))
    else None
  }

  function PrependItem(x: string, o: Option<seq<string>>): Option<seq<string>>
  {
    match o
    case Some(items) => Some([x] + items)
    case None => None
  }

  /** Reads a printed list of strings. */
  function UnreprList(r: string): Option<seq<string>>
  {
    if |r| >= 2 && r[0] == '[' && r[|r| - 1] == ']' then
      if |r| == 2 then Some([]) else ReadItems(r[1..|r| - 1])
    else None
  }

  lemma {:induction false} CloseQuoteChar(c: char, q: char, t: string)
    requires q == '\'' || q == '"'
    ensures CloseQuote(EscapeChar(c, q) + t, q) == Shift(|EscapeChar(c, q)|, CloseQuote(t, q))
  {
    var e := EscapeChar(c, q);
    var b := e + t;
    if |e| == 1 {
      assert b[1..] == t;
    } else if |e| == 2 {
      assert b[2..] == t;
    } else {
      assert e == ['\\', 'x', HexDigits[c as int / 16], HexDigits[c as int % 16]];
      CloseQuoteHex(c as int / 16, c as int % 16, q, t);
    }
  }

  /** The two hex digits of a `\xhh` escape are neither quotes nor backslashes, so the search steps over all four characters. */
  lemma CloseQuoteHex(hi: nat, lo: nat, q: char, t: string)
    requires hi < 16 && lo < 16
    requires q == '\'' || q == '"'
    ensures CloseQuote(['\\', 'x', HexDigits[hi], HexDigits[lo]] + t, q) == Shift(4, CloseQuote(t, q))
  {
    var b := ['\\', 'x', HexDigits[hi], HexDigits[lo]] + t;
    HexDigitValue(hi);
    HexDigitValue(lo);
    assert b[2..][1..] == b[3..];
    assert b[3..][1..] == t;
    assert CloseQuote(b[3..], q) == Shift(1, CloseQuote(t, q));
    assert CloseQuote(b[2..], q) == Shift(1, CloseQuote(b[3..], q));
  }

  lemma {:induction false} CloseQuoteEscaped(s: string, q: char, rest: string)
    requires q == '\'' || q == '"'
    ensures CloseQuote(EscapeBody(s, q) + [q] + rest, q) == Some(|EscapeBody(s, q)|)
  {
    if s == [] {
      assert EscapeBody(s, q) + [q] + rest == [q] + rest;
    } else {
      CloseQuoteEscaped(s[1..], q, rest);
      CloseQuoteEscapedStep(s, q, rest);
    }
  }

  /** One step of `CloseQuoteEscaped`: the first character's escape is skipped whole. */
  lemma CloseQuoteEscapedStep(s: string, q: char, rest: string)
    requires q == '\'' || q == '"'
    requires s != []
    requires CloseQuote(EscapeBody(s[1..], q) + [q] + rest, q) == Some(|EscapeBody(s[1..], q)|)
    ensures CloseQuote(EscapeBody(s, q) + [q] + rest, q) == Some(|EscapeBody(s, q)|)
  {
    var t := EscapeBody(s[1..], q) + [q] + rest;
    assert EscapeBody(s, q) + [q] + rest == EscapeChar(s[0], q) + t;
    CloseQuoteChar(s[0], q, t);
  }

  /** Where a printed string followed by more text ends: its closing quote comes right after its escaped body. */
  lemma ReadCut(x: string, rest: string)
    ensures var b := Repr(x) + rest;
            var q := QuoteFor(x);
            && b[0] == q
            && CloseQuote(b[1..], q) == Some(|EscapeBody(x, q)|)
            && b[1..1 + |EscapeBody(x, q)|] == EscapeBody(x, q)
            && b[|EscapeBody(x, q)| + 2..] == rest
  {
    var q := QuoteFor(x);
    var b := Repr(x) + rest;
    assert b[1..] == EscapeBody(x, q) + [q] + rest;
    CloseQuoteEscaped(x, q, rest);
  }

  /** Once the closing quote of the first item is found, the reader unescapes what lies between and moves on. */
  lemma ReadItemAt(b: string, k: nat)
    requires |b| > 0 && (b[0] == '\'' || b[0] == '"') && CloseQuote(b[1..], b[0]) == Some(k)
    ensures k + 2 <= |b|
    ensures ReadItems(b) == ReadRest(Unescape(b[1..1 + k]), b[k + 2..])
  {
  }

  /** A printed string followed by more text is read back exactly, and the reader carries on after its closing quote. */
  lemma ReadOne(x: string, rest: string)
    ensures ReadItems(Repr(x) + rest) == ReadRest(Some(x), rest)
  {
    var q := QuoteFor(x);
    var e := EscapeBody(x, q);
    ReadCut(x, rest);
    ReadItemAt(Repr(x) + rest, |e|);
    UnescapeEscape(x, q);
  }

  /** A printed string alone is read as a one-item list. */
  lemma ReadItemsLast(x: string)
    ensures ReadItems(Repr(x)) == Some([x])
  {
    ReadOne(x, []);
    assert Repr(x) + [] == Repr(x);
  }

  /** A printed string followed by `, ` and more items is read as its value, then the rest. */
  lemma ReadItemsFirst(x: string, more: string)
    ensures ReadItems(Repr(x) + ", " + more) == PrependItem(x, ReadItems(more))
  {
    ReadOne(x, ", " + more);
    assert Repr(x) + ", " + more == Repr(x) + (", " + more);
    ReadRestComma(x, more);
  }

  lemma ReadRestComma(x: string, more: string)
    ensures ReadRest(Some(x), ", " + more) == PrependItem(x, ReadItems(more))
  {
    var rest := ", " + more;
    assert rest[..2] == ", " && rest[2..] == more;
  }

  lemma {:induction false} ReadItemsRoundTrip(xs: seq<string>)
    requires |xs| >= 1
    ensures ReadItems(ReprItems(xs)) == Some(xs)
    decreases |xs|
  {
    if |xs| == 1 {
      ReadItemsLast(xs[0]);
      assert xs == [xs[0]];
    } else {
      ReadItemsFirst(xs[0], ReprItems(xs[1..]));
      ReadItemsRoundTrip(xs[1..]);
      assert xs == [xs[0]] + xs[1..];
    }
  }

  /** Reading back what `repr` printed for a list of strings gives the original list. */
  lemma ReprListRoundTrip(xs: seq<string>)
    ensures UnreprList(ReprList(xs)) == Some(xs)
  {
    var r := ReprList(xs);
    if |xs| > 0 {
      assert r[1..|r| - 1] == ReprItems(xs);
      ReadItemsRoundTrip(xs);
    }
  }
}

=== FILE: store.dfy ===
/**
 * What the bot keeps: per-chat data (`context.chat_data`), the process-wide
 * banned set (`context.bot_data['banned_users']`), the configuration read
 * from the environment at start-up, and the replies it sends.
 */
module Store {

  import opened Wrappers

  /** A Telegram file id, which re-sends a stored photo by reference. */
  type FileId = string

  /** The keys a chat's data may hold; each is absent until a handler writes it. */
  datatype ChatData = ChatData(
    qualities: Option<seq<string>>,    // "qualities"
    captionTemplate: Option<string>,   // "caption_template"
    batchChannel: Option<string>,      // "batch_channel"
    imgFileId: Option<FileId>          // "img_file_id"
  )

  /** The data of a chat no handler has written to. */
  const EmptyChat: ChatData := ChatData(None, None, None, None)

  /** `ADMIN_IDS` and `DEFAULT_QUALITIES`, fixed for the life of the process. */
  datatype Config = Config(adminIds: seq<int>, defaultQualities: seq<string>)

  /** A message the bot sends back to the chat. */
  datatype Reply =
    | Text(text: string)                                         // reply_text
    | Photo(fileId: FileId, caption: string, parseMode: string) // reply_photo
}

=== FILE: template.dfy ===
/**
 * The part of Python's `str.format` that caption templates use: the named
 * fields `{name}`, `{status}`, `{season}`, `{episodes}` and `{qualities}`,
 * and the escapes `{{` and `}}`. A template is read into pieces (literal
 * characters and holes), and the pieces are rendered with the field values.
 */
module Template {

  import opened Wrappers
  import PyStr

  /** The five keyword arguments the caption is formatted with. */
  datatype Field = Name | Status | Season | Episodes | Qualities

  /** How a field is spelled between braces. */
  function FieldText(f: Field): string
  {
    match f
    case Name => "name"
    case Status => "status"
    case Season => "season"
    case Episodes => "episodes"
    case Qualities => "qualities"
  }

  /** The field spelled `s`, if any (Python raises `KeyError` for any other name). */
  function FieldOf(s: string): (f: Option<Field>)
    ensures f.Some? ==> FieldText(f.value) == s
    ensures f.None? ==> forall g: Field :: FieldText(g) != s
  {
    if s == "name" then Some(Name)
    else if s == "status" then Some(Status)
    else if s == "season" then Some(Season)
    else if s == "episodes" then Some(Episodes)
    else if s == "qualities" then Some(Qualities)
    else None
  }

  /** One unit of a template: a character copied as is, or a field to substitute. */
  datatype Piece = Lit(c: char) | Hole(f: Field)

  /** Why `str.format` rejects a template. */
  datatype FormatError =
    | UnmatchedOpen              // a `{` with no `}` after it
    | UnmatchedClose             // a `}` that neither closes a field nor is doubled
    | UnknownField(field: string) // a field other than the five

  function Cons(p: Piece, r: Result<seq<Piece>, FormatError>): Result<seq<Piece>, FormatError>
  {
    match r
    case Ok(ps) => Ok([p] + ps)
    case Err(e) => Err(e)
  }

  /** Reads a template left to right, stopping at the first error as `str.format` does. */
  function Parse(t: string): Result<seq<Piece>, FormatError>
    decreases |t|
  {
    if t == [] then Ok([])
    else if t[0] == '{' then
      if |t| >= 2 && t[1] == '{' then Cons(Lit('{'), Parse(t[2..]))
      else
        var k := PyStr.IndexOf(t[1..], '}');
        if k == |t| - 1 then Err(UnmatchedOpen)
        else match FieldOf(t[1..k + 1])
          case None => Err(UnknownField(t[1..k + 1]))
          case Some(f) => Cons(Hole(f), Parse(t[k + 2..]))
    else if t[0] == '}' then
      if |t| >= 2 && t[1] == '}' then Cons(Lit('}'), Parse(t[2..])) else Err(UnmatchedClose)
    else Cons(Lit(t[0]), Parse(t[1..]))
  }

  /** How a piece is written in a template. */
  function PieceText(p: Piece): string
  {
    match p
    case Lit(c) => if c == '{' || c == '}' then [c, c] else [c]
    case Hole(f) => "{" + FieldText(f) + "}"
  }

  /** Writes pieces back as a template. */
  function Unparse(ps: seq<Piece>): string
  {
    if ps == [] then [] else PieceText(ps[0]) + Unparse(ps[1..])
  }

  /** The values of the five fields. */
  datatype Values = Values(name: string, status: string, season: string, episodes: string, qualities: string)

  function Lookup(v: Values, f: Field): string
  {
    match f
    case Name => v.name
    case Status => v.status
    case Season => v.season
    case Episodes => v.episodes
    case Qualities => v.qualities
  }

  function PieceOut(p: Piece, v: Values): string
  {
    match p
    case Lit(c) => [c]
    case Hole(f) => Lookup(v, f)
  }

  function Render(ps: seq<Piece>, v: Values): string
  {
    if ps == [] then [] else PieceOut(ps[0], v) + Render(ps[1..], v)
  }

  /** `template.format(name=…, status=…, season=…, episodes=…, qualities=…)`. */
  function Format(t: string, v: Values): Result<string, FormatError>
  {
    match Parse(t)
    case Ok(ps) => Ok(Render(ps, v))
    case Err(e) => Err(e)
  }

  // ---- Reading and writing templates are inverse ----

  lemma ParsePiece(p: Piece, rest: string)
    ensures Parse(PieceText(p) + rest) == Cons(p, Parse(rest))
  {
    match p
    case Lit(c) => ParseLit(c, rest);
    case Hole(f) => ParseHole(f, rest);
  }

  lemma ParseLit(c: char, rest: string)
    ensures Parse(PieceText(Lit(c)) + rest) == Cons(Lit(c), Parse(rest))
  {
    var t := PieceText(Lit(c)) + rest;
    if c == '{' || c == '}' { assert t[2..] == rest; } else { assert t[1..] == rest; }
  }

  lemma ParseHole(f: Field, rest: string)
    ensures Parse(PieceText(Hole(f)) + rest) == Cons(Hole(f), Parse(rest))
  {
    var n := FieldText(f);
    var t := "{" + n + "}" + rest;
    FieldTextReads(f);
    assert t[1..] == n + "}" + rest;
    assert t[1..][..|n|] == n;
    PyStr.IndexOfAt(t[1..], '}', |n|);
    assert t[1..|n| + 1] == n;
    assert t[|n| + 2..] == rest;
  }

  /** A field's name is not empty, holds no brace, and names that field. */
  lemma FieldTextReads(f: Field)
    ensures FieldText(f) != [] && '}' !in FieldText(f) && FieldText(f)[0] != '{' && FieldOf(FieldText(f)) == Some(f)
  {
    match f case Name | Status | Season | Episodes | Qualities =>
  }

  /** Every sequence of pieces is read back from the template it is written as. */
  lemma {:induction false} ParseUnparse(ps: seq<Piece>)
    ensures Parse(Unparse(ps)) == Ok(ps)
  {
    if ps != [] {
      ParsePiece(ps[0], Unparse(ps[1..]));
      ParseUnparse(ps[1..]);
      assert ps == [ps[0]] + ps[1..];
    }
  }

  /** A template that reads without error starts with the writing of its first piece. */
  lemma FirstPiece(t: string) returns (p: Piece, n: nat)
    requires t != [] && Parse(t).Ok?
    ensures 0 < n <= |t| && t == PieceText(p) + t[n..]
    ensures Parse(t) == Cons(p, Parse(t[n..]))
  {
    if t[0] == '{' {
      if |t| >= 2 && t[1] == '{' {
        p, n := Lit('{'), 2;
      } else {
        p, n := FirstHole(t);
      }
    } else if t[0] == '}' {
      p, n := Lit('}'), 2;
    } else {
      p, n := Lit(t[0]), 1;
    }
    assert t == t[..n] + t[n..];
  }

  /** A template that reads without error and starts with a single `{` starts with a field. */
  lemma FirstHole(t: string) returns (p: Piece, n: nat)
    requires t != [] && t[0] == '{' && !(|t| >= 2 && t[1] == '{') && Parse(t).Ok?
    ensures 0 < n <= |t| && t == PieceText(p) + t[n..]
    ensures Parse(t) == Cons(p, Parse(t[n..]))
  {
    var k := PyStr.IndexOf(t[1..], '}');
    p, n := Hole(FieldOf(t[1..k + 1]).value), k + 2;
    assert t == "{" + t[1..k + 1] + "}" + t[k + 2..];
  }

  /** A template that is read without error is exactly the writing of what was read. */
  lemma {:induction false} UnparseParse(t: string)
    requires Parse(t).Ok?
    ensures Unparse(Parse(t).value) == t
    decreases |t|
  {
    if t != [] {
      var p, n := FirstPiece(t);
      UnparseParse(t[n..]);
      var ps := Parse(t).value;
      assert ps[0] == p && ps[1..] == Parse(t[n..]).value;
    }
  }

  // ---- Rendering ----

  lemma {:induction false} UnparseAppend(a: seq<Piece>, b: seq<Piece>)
    ensures Unparse(a + b) == Unparse(a) + Unparse(b)
  {
    if a == [] {
      assert a + b == b;
    } else {
      assert (a + b)[1..] == a[1..] + b;
      UnparseAppend(a[1..], b);
    }
  }

  lemma {:induction false} RenderAppend(a: seq<Piece>, b: seq<Piece>, v: Values)
    ensures Render(a + b, v) == Render(a, v) + Render(b, v)
  {
    if a == [] {
      assert a + b == b;
    } else {
      assert (a + b)[1..] == a[1..] + b;
      RenderAppend(a[1..], b, v);
    }
  }

  /** The literal pieces spelling out `s`. */
  function Lits(s: string): (ps: seq<Piece>)
    ensures |ps| == |s|
    ensures forall i :: 0 <= i < |s| ==> ps[i] == Lit(s[i])
  {
    if s == [] then [] else [Lit(s[0])] + Lits(s[1..])
  }

  lemma {:induction false} UnparseLits(s: string)
    requires '{' !in s && '}' !in s
    ensures Unparse(Lits(s)) == s
  {
    if s != [] {
      assert Lits(s)[1..] == Lits(s[1..]);
      assert '{' !in s[1..] && '}' !in s[1..];
      UnparseLits(s[1..]);
    }
  }

  lemma {:induction false} RenderLits(s: string, v: Values)
    ensures Render(Lits(s), v) == s
  {
    if s != [] {
      assert Lits(s)[1..] == Lits(s[1..]);
      RenderLits(s[1..], v);
    }
  }

  /** Text without braces formats to itself, whatever the values. */
  lemma FormatPlain(t: string, v: Values)
    requires '{' !in t && '}' !in t
    ensures Format(t, v) == Ok(t)
  {
    UnparseLits(t);
    ParseUnparse(Lits(t));
    RenderLits(t, v);
  }

  /** A placeholder other than the five fails the whole format, as Python's `KeyError` does. */
  lemma FormatUnknownField(n: string, rest: string, v: Values)
    requires '}' !in n && (n == [] || n[0] != '{')
    requires FieldOf(n).None?
    ensures Format("{" + n + "}" + rest, v) == Err(UnknownField(n))
  {
    var t := "{" + n + "}" + rest;
    assert t[1..] == n + "}" + rest;
    assert t[1..][..|n|] == n;
    PyStr.IndexOfAt(t[1..], '}', |n|);
    assert t[1..|n| + 1] == n;
  }

  ghost predicate Contains(s: string, sub: string) {
    exists i :: 0 <= i <= |s| && sub <= s[i..]
  }

  /** Every field a template mentions appears, with its value, in the rendered text. */
  lemma {:induction false} RenderHasField(ps: seq<Piece>, f: Field, v: Values)
    requires Hole(f) in ps
    ensures Contains(Render(ps, v), Lookup(v, f))
  {
    var r := Render(ps, v);
    var out := PieceOut(ps[0], v);
    assert r == out + Render(ps[1..], v);
    if ps[0] == Hole(f) {
      assert Lookup(v, f) <= r[0..];
    } else {
      assert Hole(f) in ps[1..];
      RenderHasField(ps[1..], f, v);
      var i :| 0 <= i <= |Render(ps[1..], v)| && Lookup(v, f) <= Render(ps[1..], v)[i..];
      assert r[|out| + i..] == Render(ps[1..], v)[i..];
    }
  }

  // ---- Formatting a template piece by piece ----

  function ConsAll(ps: seq<Piece>, r: Result<seq<Piece>, FormatError>): Result<seq<Piece>, FormatError>
  {
    match r
    case Ok(qs) => Ok(ps + qs)
    case Err(e) => Err(e)
  }

  function Prefix(s: string, r: Result<string, FormatError>): Result<string, FormatError>
  {
    match r
    case Ok(x) => Ok(s + x)
    case Err(e) => Err(e)
  }

  lemma ConsAllFirst(ps: seq<Piece>, r: Result<seq<Piece>, FormatError>)
    requires ps != []
    ensures ConsAll(ps, r) == Cons(ps[0], ConsAll(ps[1..], r))
  {
    match r case Ok(qs) => assert ps + qs == [ps[0]] + (ps[1..] + qs); case Err(_) =>
  }

  /** Reading a template that starts with written pieces yields those pieces first. */
  lemma {:induction false} ParseAppend(ps: seq<Piece>, rest: string)
    ensures Parse(Unparse(ps) + rest) == ConsAll(ps, Parse(rest))
  {
    if ps == [] {
      assert Unparse(ps) + rest == rest;
      match Parse(rest) case Ok(qs) => assert ps + qs == qs; case Err(_) =>
    } else {
      var t := Unparse(ps[1..]) + rest;
      assert Unparse(ps) + rest == PieceText(ps[0]) + t;
      ParsePiece(ps[0], t);
      ParseAppend(ps[1..], rest);
      ConsAllFirst(ps, Parse(rest));
    }
  }

  /** Formatting a template that starts with written pieces emits their rendering first. */
  lemma FormatAppend(ps: seq<Piece>, rest: string, v: Values)
    ensures Format(Unparse(ps) + rest, v) == Prefix(Render(ps, v), Format(rest, v))
  {
    ParseAppend(ps, rest);
    match Parse(rest) case Ok(qs) => RenderAppend(ps, qs, v); case Err(_) =>
  }

  /** Brace-free text at the front of a template is copied to the front of the output. */
  lemma FormatText(s: string, rest: string, v: Values)
    requires '{' !in s && '}' !in s
    ensures Format(s + rest, v) == Prefix(s, Format(rest, v))
  {
    UnparseLits(s);
    RenderLits(s, v);
    FormatAppend(Lits(s), rest, v);
  }

  /** A line holding one field between brace-free text formats to that text around the field's value. */
  lemma FormatLine(pre: string, f: Field, post: string, rest: string, v: Values)
    requires '{' !in pre && '}' !in pre && '{' !in post && '}' !in post
    ensures Format(pre + PieceText(Hole(f)) + post + rest, v) == Prefix(pre + Lookup(v, f) + post, Format(rest, v))
  {
    var ps := Lits(pre) + [Hole(f)] + Lits(post);
    UnparseLits(pre);
    UnparseLits(post);
    UnparseAppend(Lits(pre), [Hole(f)]);
    UnparseAppend(Lits(pre) + [Hole(f)], Lits(post));
    assert Unparse([Hole(f)]) == PieceText(Hole(f));
    RenderLits(pre, v);
    RenderLits(post, v);
    RenderAppend(Lits(pre), [Hole(f)], v);
    RenderAppend(Lits(pre) + [Hole(f)], Lits(post), v);
    assert Render([Hole(f)], v) == Lookup(v, f);
    FormatAppend(ps, rest, v);
    assert pre + PieceText(Hole(f)) + post + rest == Unparse(ps) + rest;
  }

  // ---- The built-in caption template ----

  /** Joins lines end to end, as Python joins adjacent string literals. */
  function Concat(lines: seq<string>): string
  {
    if lines == [] then [] else lines[0] + Concat(lines[1..])
  }

  lemma ConcatAt(lines: seq<string>, i: nat)
    requires i < |lines|
    ensures Concat(lines[i..]) == lines[i] + Concat(lines[i + 1..])
  {
    assert lines[i..][1..] == lines[i + 1..];
  }

  /** The text before each field in the default template, and the end of each of its lines. */
  const NameLabel: string := "<b>🦋 Anime Name: "
  const StatusLabel: string := "<b>🎴 Status: "
  const SeasonLabel: string := "<b>🏮 Season: "
  const EpisodesLabel: string := "<b>🔮 Episodes: "
  const QualityLabel: string := "<b>📥 Quality: "
  const LineEnd: string := "</b>\n"

  /** The line of the default template without a field. */
  const AudioText: string := "Audio: Hindi"
  const AudioLine: string := "<b>🔈 " + AudioText + LineEnd

  /** The last line of the default template, which carries the two fixed hashtags. */
  const Hashtags: string := "#AnimeLovers #HindiDubbedAnime"
  const TagsOpen: string := "<b><blockquote>📌 Tags: "
  const TagsClose: string := "</blockquote></b>"
  const TagsLine: string := TagsOpen + Hashtags + TagsClose

  /** The lines of the caption template used when a chat has set none, each cut around its field. */
  const DefaultLines: seq<string> := [
    NameLabel + "{name}" + LineEnd,
    StatusLabel + "{status}" + LineEnd,
    SeasonLabel + "{season}" + LineEnd,
    EpisodesLabel + "{episodes}" + LineEnd,
    AudioLine,
    QualityLabel + "{qualities}" + LineEnd,
    TagsLine
  ]

  const DefaultTemplate: string := Concat(DefaultLines)

  /** The lines of a caption made with the default template. */
  function DefaultCaptionLines(v: Values): seq<string>
  {
    [
      NameLabel + v.name + LineEnd,
      StatusLabel + v.status + LineEnd,
      SeasonLabel + v.season + LineEnd,
      EpisodesLabel + v.episodes + LineEnd,
      AudioLine,
      QualityLabel + v.qualities + LineEnd,
      TagsLine
    ]
  }

  /** The default template never fails, and formats line by line with each field's value in its place. */
  lemma DefaultCaption(v: Values)
    ensures Format(DefaultTemplate, v) == Ok(Concat(DefaultCaptionLines(v)))
  {
    DefaultFrom(v, 0);
    assert DefaultLines[0..] == DefaultLines;
    assert DefaultCaptionLines(v)[0..] == DefaultCaptionLines(v);
  }

  lemma {:induction false} DefaultFrom(v: Values, i: nat)
    requires i <= 7
    ensures Format(Concat(DefaultLines[i..]), v) == Ok(Concat(DefaultCaptionLines(v)[i..]))
    decreases 7 - i
  {
    var t, o := DefaultLines, DefaultCaptionLines(v);
    if i == 7 {
      assert t[7..] == [] && o[7..] == [];
      FormatPlain([], v);
    } else {
      DefaultFrom(v, i + 1);
      ConcatAt(t, i);
      ConcatAt(o, i);
      DefaultLine(v, i, Concat(t[i + 1..]));
    }
  }

  /** Each line of the default template formats to the matching caption line. */
  lemma DefaultLine(v: Values, i: nat, rest: string)
    requires i < 7
    ensures Format(DefaultLines[i] + rest, v) == Prefix(DefaultCaptionLines(v)[i], Format(rest, v))
  {
    if i == 0 {
      NameLineFormats(v, rest);
    } else if i == 1 {
      StatusLineFormats(v, rest);
    } else if i == 2 {
      SeasonLineFormats(v, rest);
    } else if i == 3 {
      EpisodesLineFormats(v, rest);
    } else if i == 4 {
      AudioLineFormats(v, rest);
    } else if i == 5 {
      QualityLineFormats(v, rest);
    } else {
      TagsLineFormats(v, rest);
    }
  }

  lemma NameLineFormats(v: Values, rest: string)
    ensures Format(DefaultLines[0] + rest, v) == Prefix(DefaultCaptionLines(v)[0], Format(rest, v))
  {
    LabelsBraceFree();
    FieldLine(0, NameLabel, Name, rest, v);
  }

  lemma StatusLineFormats(v: Values, rest: string)
    ensures Format(DefaultLines[1] + rest, v) == Prefix(DefaultCaptionLines(v)[1], Format(rest, v))
  {
    LabelsBraceFree();
    FieldLine(1, StatusLabel, Status, rest, v);
  }

  lemma SeasonLineFormats(v: Values, rest: string)
    ensures Format(DefaultLines[2] + rest, v) == Prefix(DefaultCaptionLines(v)[2], Format(rest, v))
  {
    LabelsBraceFree();
    FieldLine(2, SeasonLabel, Season, rest, v);
  }

  lemma EpisodesLineFormats(v: Values, rest: string)
    ensures Format(DefaultLines[3] + rest, v) == Prefix(DefaultCaptionLines(v)[3], Format(rest, v))
  {
    LabelsBraceFree();
    FieldLine(3, EpisodesLabel, Episodes, rest, v);
  }

  lemma QualityLineFormats(v: Values, rest: string)
    ensures Format(DefaultLines[5] + rest, v) == Prefix(DefaultCaptionLines(v)[5], Format(rest, v))
  {
    LabelsBraceFree();
    FieldLine(5, QualityLabel, Qualities, rest, v);
  }

  lemma LabelsBraceFree()
    ensures '{' !in NameLabel && '}' !in NameLabel && '{' !in StatusLabel && '}' !in StatusLabel
    ensures '{' !in SeasonLabel && '}' !in SeasonLabel && '{' !in EpisodesLabel && '}' !in EpisodesLabel
    ensures '{' !in QualityLabel && '}' !in QualityLabel && '{' !in LineEnd && '}' !in LineEnd
  {
    FirstLabelsBraceFree();
    MiddleLabelsBraceFree();
    LastLabelsBraceFree();
  }

  lemma FirstLabelsBraceFree()
    ensures '{' !in NameLabel && '}' !in NameLabel && '{' !in StatusLabel && '}' !in StatusLabel
  {
  }

  lemma MiddleLabelsBraceFree()
    ensures '{' !in SeasonLabel && '}' !in SeasonLabel && '{' !in EpisodesLabel && '}' !in EpisodesLabel
  {
  }

  lemma LastLabelsBraceFree()
    ensures '{' !in QualityLabel && '}' !in QualityLabel && '{' !in LineEnd && '}' !in LineEnd
  {
  }

  lemma AudioLineFormats(v: Values, rest: string)
    ensures Format(AudioLine + rest, v) == Prefix(AudioLine, Format(rest, v))
  {
    FormatText(AudioLine, rest, v);
  }

  lemma TagsLineFormats(v: Values, rest: string)
    ensures Format(TagsLine + rest, v) == Prefix(TagsLine, Format(rest, v))
  {
    TagsLineBraceFree();
    FormatText(TagsLine, rest, v);
  }

  lemma TagsLineBraceFree()
    ensures '{' !in TagsLine && '}' !in TagsLine
  {
    TagsOpenBraceFree();
    TagsBraceFree();
    TagsCloseBraceFree();
  }

  lemma TagsOpenBraceFree()
    ensures '{' !in TagsOpen && '}' !in TagsOpen
  {
  }

  lemma TagsBraceFree()
    ensures '{' !in Hashtags && '}' !in Hashtags
  {
  }

  lemma TagsCloseBraceFree()
    ensures '{' !in TagsClose && '}' !in TagsClose
  {
  }

  /** A line of the default template holding one field: text, the field, and the closing `</b>` with a newline. */
  lemma FieldLine(i: nat, pre: string, f: Field, rest: string, v: Values)
    requires i < 7
    requires DefaultLines[i] == pre + PieceText(Hole(f)) + LineEnd
    requires DefaultCaptionLines(v)[i] == pre + Lookup(v, f) + LineEnd
    requires '{' !in pre && '}' !in pre && '{' !in LineEnd && '}' !in LineEnd
    ensures Format(DefaultLines[i] + rest, v) == Prefix(DefaultCaptionLines(v)[i], Format(rest, v))
  {
    FormatLine(pre, f, LineEnd, rest, v);
  }

  /** Text found in one line is found in the lines joined. */
  lemma {:induction false} ConcatContains(lines: seq<string>, i: nat, sub: string)
    requires i < |lines| && Contains(lines[i], sub)
    ensures Contains(Concat(lines), sub)
  {
    var whole := Concat(lines);
    assert whole == lines[0] + Concat(lines[1..]);
    if i == 0 {
      var k :| 0 <= k <= |lines[0]| && sub <= lines[0][k..];
      assert whole[k..] == lines[0][k..] + Concat(lines[1..]);
    } else {
      ConcatContains(lines[1..], i - 1, sub);
      var k :| 0 <= k <= |Concat(lines[1..])| && sub <= Concat(lines[1..])[k..];
      assert whole[|lines[0]| + k..] == Concat(lines[1..])[k..];
    }
  }

  /** A caption made with the default template always says `Audio: Hindi`, carries both fixed hashtags, and shows every value. */
  lemma DefaultCaptionMentions(v: Values)
    ensures Format(DefaultTemplate, v).Ok?
    ensures var caption := Format(DefaultTemplate, v).value;
            && Contains(caption, "Audio: Hindi")
            && Contains(caption, "#AnimeLovers #HindiDubbedAnime")
            && Contains(caption, v.name) && Contains(caption, v.status) && Contains(caption, v.season)
            && Contains(caption, v.episodes) && Contains(caption, v.qualities)
  {
    DefaultCaption(v);
    var o := DefaultCaptionLines(v);
    FixedTextMentioned(o);
    FieldMentioned(o, 0, NameLabel, v.name);
    FieldMentioned(o, 1, StatusLabel, v.status);
    FieldMentioned(o, 2, SeasonLabel, v.season);
    FieldMentioned(o, 3, EpisodesLabel, v.episodes);
    FieldMentioned(o, 5, QualityLabel, v.qualities);
  }

  /** The caption's audio line and hashtags come through whatever the values are. */
  lemma FixedTextMentioned(o: seq<string>)
    requires |o| == 7 && o[4] == AudioLine && o[6] == TagsLine
    ensures Contains(Concat(o), AudioText) && Contains(Concat(o), Hashtags)
  {
    Mentioned(o, 4, "<b>🔈 ", AudioText, LineEnd);
    Mentioned(o, 6, TagsOpen, Hashtags, TagsClose);
  }

  /** A value shown on one of the lines is shown in the lines joined. */
  lemma FieldMentioned(lines: seq<string>, i: nat, lead: string, x: string)
    requires i < |lines| && lines[i] == lead + x + LineEnd
    ensures Contains(Concat(lines), x)
  {
    Mentioned(lines, i, lead, x, LineEnd);
  }

  /** Text found in one of the lines is found in the lines joined. */
  lemma Mentioned(lines: seq<string>, i: nat, lead: string, x: string, tail: string)
    requires i < |lines| && lines[i] == lead + x + tail
    ensures Contains(Concat(lines), x)
  {
    assert x <= lines[i][|lead|..];
    ConcatContains(lines, i, x);
  }
}

=== FILE: wizard.dfy ===
/**
 * The captioning conversation: `/imgcap` asks for a photo, a photo asks for
 * four lines of details, and four lines produce the captioned photo.
 * Each handler returns the conversation's next state, the chat's data and
 * its reply; the conversation's end is `Idle`.
 */
module Wizard {

  import opened Wrappers
  import opened Store
  import PyStr
  import Template

  /** Where a conversation stands: not started (or ended), `IMAGE_WAIT`, or `IMG_DETAILS`. */
  datatype ConvState = Idle | ImageWait | ImgDetails

  /** A handler's returned state, the chat's data afterwards, and the reply it sent. */
  datatype Outcome = Outcome(next: ConvState, chat: ChatData, reply: Reply)

  /** An exception a handler raises instead of returning. */
  datatype Fault =
    | FormatFailed(error: Template.FormatError) // `caption_template.format(...)` raised
    | MissingKey(key: string)                    // `context.chat_data[key]` raised `KeyError`

  const PhotoPrompt: string := "Please send the image to caption."
  const PhotoAgain: string := "Please send an image."
  const DetailsPrompt: string := "Send details in 4 lines:\n1. Anime Name\n2. Status\n3. Season\n4. Episodes"
  const DetailsAgain: string := "Need 4 details. Try again."
  const Cancelled: string := "Operation cancelled."

  /** `imgcap_start`: asks for the photo and waits for it. */
  function ImgcapStart(chat: ChatData): (o: Outcome)
    ensures o.next == ImageWait && o.chat == chat
  {
    Outcome(ImageWait, chat, Text(PhotoPrompt))
  }

  /** `process_img`: keeps the id of the last (largest) size of the photo and asks for the details. */
  function ProcessImg(chat: ChatData, photos: seq<FileId>): (o: Outcome)
    ensures photos == [] ==> o == Outcome(ImageWait, chat, Text(PhotoAgain))
    ensures photos != [] ==>
      && o.next == ImgDetails
      && o.chat == chat.(imgFileId := o.chat.imgFileId)
      && o.chat.imgFileId == Some(photos[|photos| - 1])
      && o.reply == Text(DetailsPrompt)
  {
    if photos == [] then Outcome(ImageWait, chat, Text(PhotoAgain))
    else Outcome(ImgDetails, chat.(imgFileId := Some(photos[|photos| - 1])), Text(DetailsPrompt))
  }

  /** The values a caption is formatted with: the first four detail lines, each trimmed, and the qualities joined by `", "`. */
  function DetailValues(details: seq<string>, qualities: seq<string>): (v: Template.Values)
    requires |details| >= 4
    ensures PyStr.Trimmed(v.name) && PyStr.Trimmed(v.status) && PyStr.Trimmed(v.season) && PyStr.Trimmed(v.episodes)
    ensures PyStr.Padded(details[0], v.name) && PyStr.Padded(details[1], v.status)
    ensures PyStr.Padded(details[2], v.season) && PyStr.Padded(details[3], v.episodes)
    ensures v.qualities == PyStr.Join(qualities, ", ")
  {
    Template.Values(PyStr.Strip(details[0]), PyStr.Strip(details[1]), PyStr.Strip(details[2]),
                    PyStr.Strip(details[3]), PyStr.Join(qualities, ", "))
  }

  /** The chat's caption template, or the built-in one. */
  function TemplateOf(chat: ChatData): (t: string)
    ensures chat.captionTemplate.None? ==> t == Template.DefaultTemplate
    ensures chat.captionTemplate.Some? ==> t == chat.captionTemplate.value
  {
    chat.captionTemplate.GetOr(Template.DefaultTemplate)
  }

  /** The chat's quality list, or the configured default. */
  function QualitiesOf(config: Config, chat: ChatData): (qs: seq<string>)
    ensures chat.qualities.None? ==> qs == config.defaultQualities
    ensures chat.qualities.Some? ==> qs == chat.qualities.value
  {
    chat.qualities.GetOr(config.defaultQualities)
  }

  /**
   * `process_img_details`: the text is split on newlines; fewer than four
   * lines asks again, otherwise the caption is formatted and the stored
   * photo is sent with it, ending the conversation. The chat's data is
   * never changed.
   */
  function ProcessImgDetails(config: Config, chat: ChatData, text: string): (r: Result<Outcome, Fault>)
    ensures r.Ok? ==> r.value.chat == chat
    ensures PyStr.Count(text, '\n') < 3 ==> r == Ok(Outcome(ImgDetails, chat, Text(DetailsAgain)))
    ensures PyStr.Count(text, '\n') >= 3 ==>
      var caption := Template.Format(TemplateOf(chat),
                                     DetailValues(PyStr.Split(text, '\n'), QualitiesOf(config, chat)));
      && (caption.Err? ==> r == Err(FormatFailed(caption.error)))
      && (caption.Ok? && chat.imgFileId.None? ==> r == Err(MissingKey("img_file_id")))
      && (caption.Ok? && chat.imgFileId.Some? ==>
            r == Ok(Outcome(Idle, chat, Photo(chat.imgFileId.value, caption.value, "HTML"))))
  {
    var details := PyStr.Split(text, '\n');
    if |details| < 4 then Ok(Outcome(ImgDetails, chat, Text(DetailsAgain)))
    else SendCaptioned(chat, DetailValues(details, QualitiesOf(config, chat)))
  }

  /** The rest of `process_img_details` once the details are read: format the caption, then send the stored photo with it. */
  function SendCaptioned(chat: ChatData, values: Template.Values): (r: Result<Outcome, Fault>)
    ensures r.Ok? ==> r.value.next == Idle && r.value.chat == chat
  {
    match Template.Format(TemplateOf(chat), values)
    case Err(e) => Err(FormatFailed(e))
    case Ok(caption) =>
      match chat.imgFileId
      case None => Err(MissingKey("img_file_id"))
      case Some(id) => Ok(Outcome(Idle, chat, Photo(id, caption, "HTML")))
  }

  /** `cancel`: ends the conversation and leaves the chat's data alone. */
  function Cancel(chat: ChatData): (o: Outcome)
    ensures o.next == Idle && o.chat == chat
  {
    Outcome(Idle, chat, Text(Cancelled))
  }

  /** Lines after the fourth never reach the caption: only the first four lines matter. */
  lemma OnlyFirstFourLines(config: Config, chat: ChatData, lines: seq<string>)
    requires |lines| >= 4
    requires forall i :: 0 <= i < |lines| ==> '\n' !in lines[i]
    ensures ProcessImgDetails(config, chat, PyStr.Join(lines, "\n")) ==
            ProcessImgDetails(config, chat, PyStr.Join(lines[..4], "\n"))
  {
    FirstFourLines(lines);
    SameFirstFour(config, chat, PyStr.Join(lines, "\n"), PyStr.Join(lines[..4], "\n"));
  }

  /** Joining lines and splitting them again gives the first four lines back, however many follow. */
  lemma FirstFourLines(lines: seq<string>)
    requires |lines| >= 4
    requires forall i :: 0 <= i < |lines| ==> '\n' !in lines[i]
    ensures |PyStr.Split(PyStr.Join(lines, "\n"), '\n')| >= 4
    ensures |PyStr.Split(PyStr.Join(lines[..4], "\n"), '\n')| >= 4
    ensures PyStr.Split(PyStr.Join(lines, "\n"), '\n')[..4] == PyStr.Split(PyStr.Join(lines[..4], "\n"), '\n')[..4]
  {
    PyStr.SplitJoin(lines, '\n');
    PyStr.SplitJoin(lines[..4], '\n');
    assert lines[..4][..4] == lines[..4];
  }

  /** Two texts whose first four lines agree get the same answer. */
  lemma SameFirstFour(config: Config, chat: ChatData, t1: string, t2: string)
    requires |PyStr.Split(t1, '\n')| >= 4 && |PyStr.Split(t2, '\n')| >= 4
    requires PyStr.Split(t1, '\n')[..4] == PyStr.Split(t2, '\n')[..4]
    ensures ProcessImgDetails(config, chat, t1) == ProcessImgDetails(config, chat, t2)
  {
    var d1, d2 := PyStr.Split(t1, '\n'), PyStr.Split(t2, '\n');
    var qs := QualitiesOf(config, chat);
    assert d1[..4][0] == d2[..4][0] && d1[..4][1] == d2[..4][1] && d1[..4][2] == d2[..4][2] && d1[..4][3] == d2[..4][3];
    assert DetailValues(d1, qs) == DetailValues(d2, qs);
    assert ProcessImgDetails(config, chat, t1) == SendCaptioned(chat, DetailValues(d1, qs));
    assert ProcessImgDetails(config, chat, t2) == SendCaptioned(chat, DetailValues(d2, qs));
  }

  /** With no template or qualities set, four lines give the built-in caption with the trimmed lines and the default qualities. */
  lemma DefaultDetailsCaption(config: Config, chat: ChatData, lines: seq<string>)
    requires |lines| >= 4
    requires forall i :: 0 <= i < |lines| ==> '\n' !in lines[i]
    requires chat.captionTemplate.None? && chat.qualities.None? && chat.imgFileId.Some?
    ensures var v := Template.Values(PyStr.Strip(lines[0]), PyStr.Strip(lines[1]), PyStr.Strip(lines[2]),
                                     PyStr.Strip(lines[3]), PyStr.Join(config.defaultQualities, ", "));
            ProcessImgDetails(config, chat, PyStr.Join(lines, "\n")) ==
              Ok(Outcome(Idle, chat, Photo(chat.imgFileId.value, Template.Concat(Template.DefaultCaptionLines(v)), "HTML")))
  {
    PyStr.SplitJoin(lines, '\n');
    var details := PyStr.Split(PyStr.Join(lines, "\n"), '\n');
    Template.DefaultCaption(DetailValues(details, config.defaultQualities));
  }
}

=== FILE: wrappers.dfy ===
/** Failure-carrying datatypes shared by the rest of the model. */
module Wrappers {

  /** A value that may be absent, such as an unset key of a chat's data. */
  datatype Option<+T> = None | Some(value: T) {

    /** The wrapped value, or `default` when absent (Python's `dict.get(key, default)`). */
    function GetOr(default: T): (r: T)
      ensures Some? ==> r == value
      ensures None? ==> r == default
    {
      match this
      case Some(v) => v
      case None => default
    }
  }

  /** Either a computed value or the error (an uncaught Python exception) that stopped it. */
  datatype Result<+R, +E> = Ok(value: R) | Err(error: E)
}
